=== FILE: README.md ===
# QuickThrow — a Dafny model of the game rules

QuickThrow is a two-player arcade game on a 1200 × 800 field split by a
vertical line at x = 600. Player 1 keeps to the left half and player 2 to the
right half. Enemies spawn at the walls and walk towards the player they hunt.
There is one weapon. A player who holds it can shoot. A bullet is stopped
at the middle line on the side of its spawn point, so it stays in the half it
was fired into. The holder
can throw the weapon to the other player, and the thrower is then locked out
of catching it again for 0.3 s. A player loses one point of health for every
enemy that reaches them. When either player has lost all 3 points the game is
over, and `R` restarts it.

The model describes every rule with immutable datatypes and pure functions
over `real`:

- **Optional** — `Option`, standing in for the player references that may be null.
- **Constants** — the values from `include/Constants.h`, plus the literals
  the code uses inline (pickup range 40, cooldown 0.3, damping 0.98, landing
  speed 10, carry offset 30, midline tolerance 5, gap 2, crowd threshold 10,
  spawn margin 50).
- **Vectors** — vector arithmetic and squared distances. `normalize` and
  `distance` are here too: the square root, the trigonometry and `atan2` are
  uninterpreted operations bundled in `Geometry`.
- **Seqs** — `vector::erase` at an index, and the subsequence order.
- **Players** — `Player`, damage, the setters, the input snapshot, and the
  movement and clamping part of `Player::update`.
- **Enemies** — `Enemy` with an optional target, `Enemy::update` and
  `checkCollision`.
- **Bullets** — `Bullet`, its constructor, `update`, `isOutOfBounds`,
  `shouldStopAtMiddle` and `checkHit`.
- **Weapons** — the weapon's possession state machine: grounded, held or
  flying. It covers the cooldown, flight and landing, `throwTo` and
  `checkPickup`.
- **Game** — `Game::update` with its fixed stage order: players, weapon,
  pickups (player 1 first), spawning, the enemy loop, the bullet loop and the
  game-over test. Also `shoot`, throwing, the constructor and `restart`.
- **Session** — `Game::run` and `handleEvents`. Events are handled only
  while the game runs, and `R` only once it is over. The controller triggers
  fire on rising edges, and the frame update is skipped while the game is
  over.

The values the program reads from outside become parameters:

- the frame time `dt`;
- the current time `now`, read against the spawn clock, whose last restart
  is the field `spawnStart`;
- the input snapshot: keys, the mouse in world coordinates, and the connected
  joysticks;
- the four random spawn coordinates;
- the `Geometry` operations.

The static trigger flags of `handleEvents` become an explicit `Latch`.

A few behaviours of the code are worth knowing:

- The keyboard path of `Player::update` reads W/A/S/D for every keyboard
  player, player 2 included (src/Player.cpp:61-64). The model follows the code.
- `lastHolder` is cleared only when the cooldown goes strictly below zero
  (src/Weapon.cpp:30). A cooldown that lands exactly on 0 keeps `lastHolder`,
  but it no longer blocks a pickup, because the block needs a positive
  cooldown.
- At start-up and after `restart` the weapon lies 300 from player 1. That is
  outside the pickup range, so nobody holds it (see Findings).
- The session calls `shoot` and `restart` as written. The corrected
  `Game.ShootFromSide` and `Game.RestartArmed` of the Findings stand beside
  them as the intended behaviour.

## Model

| member | source | states |
|---|---|---|
| Vectors.DistanceSq | include/Vector2Utils.h:15-19 | the squared distance is never negative, so `distance` is a well-defined non-negative root |
| Vectors.Normalize | include/Vector2Utils.h:8-13 | the zero vector is returned unchanged; any other vector goes to the unit-vector operation |
| Vectors.DistanceUnique | include/Vector2Utils.h:15-19 | two non-negative roots of the same squared distance are equal, so `distance` is a function of its points |
| Vectors.DistanceSymmetric | include/Vector2Utils.h:15-19 | distance(a, b) is also distance(b, a) |
| Vectors.DistanceToSelf | include/Vector2Utils.h:15-19 | distance(a, a) is 0 |
| Vectors.WithinIffDistanceBelow | include/Vector2Utils.h:15-19 | `distance < r` holds exactly when the squared distance is below r² (r non-negative), which justifies comparing squares |
| Vectors.WithinSelf | include/Vector2Utils.h:15-19 | every point lies within any nonzero radius of itself |
| Seqs.RemoveAt | src/Game.cpp:280 | erasing index i drops exactly that element: one shorter, elements before i kept, elements after shifted down by one |
| Seqs.RemoveAtIsSubseq | src/Game.cpp:280 | erasing keeps the remaining elements in their order |
| Players.New | src/Player.cpp:15-17 | a new player stands at the given point with full health, facing 0, without the weapon, with the given controller settings, and is alive |
| Players.TakeDamage | src/Player.cpp:101-103 | health drops by exactly one, with no floor; nothing else changes |
| Players.DamagedCount | src/Player.cpp:101-103 | n damage events cost exactly n health and change nothing else |
| Players.FreshPlayerLifetime | include/Player.h:24 | a player at full health is alive after n hits exactly when n < 3 |
| Players.SetHasWeapon | include/Player.h:33 | sets the weapon flag and changes nothing else |
| Players.SetIsControllerPlayer | include/Player.h:34 | sets the controller flag and changes nothing else |
| Players.StickAxis | src/Player.cpp:48-49 | a stick deflection inside the deadzone (magnitude at most 15) gives 0; outside it the axis value is the deflection divided by 100 |
| Players.KeyAxis | src/Player.cpp:61-64 | a pair of opposing keys gives -1 when only the negative key is held, 1 when only the positive key is held, and 0 exactly when both or neither are held |
| Players.Clamp | src/Player.cpp:81-87 | the clamp lands in [lo, hi]: a value below lo gives lo, above hi gives hi, and a value already inside is unchanged |
| Players.ClampToHalf | src/Player.cpp:78-87 | the clamped point lies in the player's own half: x is clamped to [20, 578] on the left side or [622, 1180] on the right, y to [20, 780]; a point already in the same half is left as it is |
| Players.Update | src/Player.cpp:38-96 | the player turns to the aim; zero movement leaves the position alone; otherwise the new position is the old one plus the unit movement direction times 200·dt, clamped to the player's half; after a move the player lies in its own half (x in [20, 578] or [622, 1180], y in [20, 780]); the side never changes; a player in its half stays there; health, weapon flag and controller settings are untouched |
| Enemies.Update | src/Enemy.cpp:25-32 | the target never changes; an enemy without a target, or already on its target's point, does not move |
| Enemies.CollisionIffDistanceBelow | src/Enemy.cpp:47-49 | `checkCollision` holds exactly when the distance to the player is below 35 |
| Enemies.UpdateSeesPositionsOnly | src/Enemy.cpp:25-32 | an enemy's step depends on the players' positions only, not on their health or weapon |
| Enemies.ApproachesTarget | src/Enemy.cpp:27-29 | an enemy with a target, not yet on it, whose step does not overshoot, strictly closes in on the target |
| Bullets.New | src/Bullet.cpp:14-21 | a bullet starts at its spawn point and counts as started left exactly when x < 600; a zero direction gives zero velocity, any other gives the unit direction times 500 |
| Bullets.Update | src/Bullet.cpp:27-30 | the position advances by velocity·dt; velocity and starting side are unchanged |
| Bullets.UpdateAdditive | src/Bullet.cpp:27-30 | two steps of dt1 and dt2 reach the same point as one step of dt1 + dt2 |
| Bullets.ZeroDirectionStands | src/Bullet.cpp:19 | a bullet fired with a zero direction never moves |
| Bullets.OutOfBoundsIffOutsideArena | src/Bullet.cpp:44-47 | a bullet is out of bounds exactly when it is outside the closed field [0, 1200] × [0, 800]; the edges count as inside |
| Bullets.NotStoppedStaysOnItsSide | src/Bullet.cpp:53-65 | a bullet is let through exactly when it is strictly left of 595 (started left) or strictly right of 605 (started right) |
| Bullets.MidlineEdges | src/Bullet.cpp:53-65 | a left-started bullet stops at 595 but not at 594; a right-started one stops at 605 but not at 606 |
| Bullets.HitIffDistanceBelow | src/Bullet.cpp:72-74 | `checkHit` holds exactly when the distance to the enemy is below 20 |
| Weapons.New | src/Weapon.cpp:14-15 | a new weapon lies on the ground at its point with no holder, no last holder, no velocity and cooldown 0 |
| Weapons.TickCooldown | src/Weapon.cpp:28-34 | the cooldown stays non-negative; a cooldown going below zero becomes 0 and clears the last holder; otherwise it drops by dt; a cooldown of 0 changes nothing |
| Weapons.Fly | src/Weapon.cpp:36-50 | a flying weapon moves by velocity·dt and its velocity is damped by 0.98; it lands, with zero velocity, exactly when both damped components are below 10 in magnitude |
| Weapons.Update | src/Weapon.cpp:26-58 | the holder never changes and the weapon never starts flying; the cooldown and last holder are exactly those of the cooldown tick; the held-or-flying exclusion and a non-negative cooldown are kept; a grounded weapon stays put; a held one follows its holder; a flying one lands or keeps flying |
| Weapons.ThrowTo | src/Weapon.cpp:73-87 | nothing happens unless both players are given and the thrower holds the weapon; otherwise the weapon flies from where it is towards the other player at 400, no one holds it, the thrower loses the weapon flag and is locked out for 0.3 s |
| Weapons.CheckPickup | src/Weapon.cpp:95-116 | the pickup succeeds exactly when the player is not locked out, nobody holds the weapon and it is within 40; success makes the player the holder, sets its flag and stops any flight; a held weapon is never taken; failure changes nothing |
| Weapons.LockoutPersists | src/Weapon.cpp:28-34 | a frame shorter than the remaining cooldown lowers it by dt and keeps the thrower locked out |
| Weapons.ThrowThenPickupFails | src/Weapon.cpp:97-99 | right after a throw the thrower cannot catch the weapon |
| Weapons.CooldownElapses | src/Weapon.cpp:28-34 | once a frame at least as long as the remaining cooldown has passed, the thrower is no longer locked out |
| Weapons.FlightDamps | src/Weapon.cpp:36-50 | after n frames of flight the velocity is the thrown velocity times 0.98ⁿ, and a weapon still flying was flying the frame before |
| Weapons.ThrownWeaponLands | src/Weapon.cpp:44-49 | a flying weapon thrown at no more than 400 per component lands within 1951 frames |
| Game.Pickups | src/Game.cpp:225-226 | player 1 is tried first, and when player 1's pickup succeeds the result is exactly that pickup; player 2 gets a chance only if player 1's pickup fails, and the result is then exactly player 2's pickup; a held weapon stays with its holder; health and positions are untouched |
| Game.PickupOrderFavoursPlayer1 | src/Game.cpp:225-226 | with both players in reach of a free weapon and player 1 not locked out, player 1 gets it |
| Game.Spawn | src/Game.cpp:229-245 | a spawn tick keeps the old enemies and appends one at the left wall hunting player 1 and one at the right wall hunting player 2; two more (top for player 1, bottom for player 2) follow exactly when the count then exceeds 10 |
| Game.SpawnedOnTargetSide | src/Game.cpp:229-245 | with draws from the spawner's ranges, every new enemy starts inside the field, in the half of the player it hunts |
| Game.Spawned | src/Game.cpp:229-234 | enemies are spawned exactly when the spawn interval has elapsed since the spawn clock last restarted; otherwise the enemies are as they were |
| Game.Strike | src/Game.cpp:252-259 | a moved enemy strikes player 1 when it collides with them, and player 2 only when it misses player 1 and collides with player 2 |
| Game.SurvivorsMembers | src/Game.cpp:249-263 | the surviving enemies are exactly those that strike nobody, kept in their order, and survivors plus strikes account for every enemy |
| Game.EnemyPass | src/Game.cpp:249-263 | the enemy loop as the code runs it, with damage applied in place, equals the reference definition: the survivors are the moved enemies that strike nobody, and each player loses one health per enemy that strikes them |
| Game.EnemyPassAccounting | src/Game.cpp:252-259 | the health both players lose in a frame equals the number of enemies removed, and nothing but health changes for them |
| Game.FirstHit | src/Game.cpp:278-287 | the result is the least index of an enemy the bullet hits, and there is none exactly when the bullet hits no enemy |
| Game.BulletStep | src/Game.cpp:267-295 | a bullet at the line is removed and touches no enemy; otherwise it removes the first enemy it hits, and only that one; it is kept exactly when it did not stop, hit nothing and is in bounds |
| Game.BulletPass | src/Game.cpp:266-296 | the kept bullets are the moved bullets in their order, minus some; every moved bullet that is short of the line, in bounds and hits none of the enemies is kept; every kept bullet is short of the line, in bounds and hits none of the enemies left; the enemies left keep their order; every enemy that is gone was hit by one of the moved bullets; conversely every moved bullet short of the line and in bounds is either kept or takes an enemy with it, so the enemies removed are at least the live bullets not kept; no more enemies are removed than bullets spent |
| Game.StepRemovesHit | src/Game.cpp:278-287 | an enemy the bullet step erases is one the moved bullet hits |
| Game.Update | src/Game.cpp:216-308 | the stages run in order: the weapon is the result of the pickups after the moved players carry it, the players are those the enemy loop leaves after the pickups, and bullets and enemies are the bullet loop's result against the enemies the enemy loop leaves; each player stands where `Player::update` put them; the health lost in the frame is at most the number of enemies removed; game over is set exactly when it was set before or a player's health is gone, and is never cleared; the spawn clock restarts exactly on a spawn tick; the weapon and the players stay in agreement |
| Game.Shot | src/Game.cpp:316-317 | the bullet starts 30 ahead of the player along its aim with velocity normalize(aim)·500, and its starting side is read off that spawn point |
| Game.Shoot | src/Game.cpp:314-319 | exactly one bullet is appended when the player has the weapon and none otherwise; nothing else changes |
| Game.Throw | src/Game.cpp:141-147 | a throw to the other player keeps the weapon and the players in agreement and touches nothing but the weapon and the players; when the thrower holds the weapon it flies from where it is towards the other player at 400, the thrower becomes its last holder, is locked out for 0.3 s and loses the weapon flag and nothing else, and the other player is untouched; without the weapon nothing changes |
| Game.Restart | src/Game.cpp:324-342 | no enemies or bullets, game not over, both players at full health at (300, 400) and (900, 400) facing 0, player 1 on the controller exactly when joystick 0 is connected, player 2 unarmed, the weapon recreated at (600, 400) resting with no last holder and no cooldown, spawn clock restarted, weapon and players in agreement |
| Game.Init | src/Game.cpp:10-44 | the constructor's state: player 1 on the controller exactly when joystick 0 is connected, both players at full health on their starting points, no enemies or bullets, the game running, the spawn clock started, weapon and players in agreement |
| Game.InitIsRestart | src/Game.cpp:326-332 | the constructor and `restart` build the same state |
| Game.RestartLeavesWeaponGrounded | src/Game.cpp:331-332 | as written, the start-up pickup fails: the weapon is exactly the fresh weapon at (600, 400), lying on the ground, and player 1 does not have it |
| Game.ShotCrossesMidline | src/Game.cpp:316-317 | as written, player 1 at the right edge of its half aiming along the x axis fires a bullet that, after a move of at most 1 s, is past the line, in bounds and not stopped, so the bullet loop keeps it in player 2's half |
| Game.SidedShot | src/Bullet.cpp:20 | corrected: the bullet belongs to the shooter's half and is otherwise the bullet `shoot` builds |
| Game.ShootFromSide | src/Game.cpp:314-319 | corrected `shoot`: one sided bullet is appended exactly when the player has the weapon; nothing else changes |
| Game.SidedShotStaysInHalf | src/Bullet.cpp:53-65 | corrected: a sided bullet that is not stopped lies in the shooter's half |
| Game.KeptBulletsOnTheirSide | src/Game.cpp:266-296 | every bullet the bullet loop keeps lies in the half it started from |
| Game.RestartArmed | src/Game.cpp:40-41 | corrected start: the same reset as `restart`, but player 1 holds the weapon, as the code comment says |
| Game.ThrowLands | src/Weapon.cpp:83-85 | a throw whose direction has components of magnitude at most 1 lands within 1951 frames |
| Session.SetController1 | src/Game.cpp:168-181 | only player 1's controller flag changes |
| Session.Playing | src/Game.cpp:138-182 | Space throws and E or the left button shoots only for a keyboard player 1 holding the weapon; right Control throws and the right button shoots only for player 2 holding the weapon; without the weapon these do nothing; joystick 0 connecting or disconnecting sets or clears player 1's controller flag, other joysticks and every other event do nothing |
| Session.HandleEvent | src/Game.cpp:134-190 | while the game runs an event has its playing effect; once it is over only `R` acts, and it calls `restart` as written; closing the window only closes it; the trigger latch is untouched |
| Session.Triggers | src/Game.cpp:193-210 | the triggers are read only while the game runs, player 1 is on the controller and joystick 0 is connected; then the latch records this poll's trigger states, and otherwise it is kept; a rising right trigger with the weapon appends exactly player 1's shot, and otherwise no bullet is added; a rising left trigger with the weapon has exactly the effect of `throwTo(player1, player2)` on weapon and players: it flies towards player 2, player 1 is its last holder, is locked out for 0.3 s and loses the flag; without that edge weapon and players are unchanged |
| Session.HandleEventsSingle | src/Game.cpp:133-134 | a poll of one event is that event's handling |
| Session.HandleEventsAppend | src/Game.cpp:133-134 | polling `a + b` is polling `a` and then `b`, so the events are handled one after another in order |
| Session.HandleEvents | src/Game.cpp:133-134 | the poll leaves the trigger latch alone; that it applies its events in order is HandleEventsSingle and HandleEventsAppend; what it does to the window, to a finished game and to the weapon's agreement with the players is carried by HandleEventsOpen, GameOverFreezes and HandleEventsConsistent |
| Session.Tick | src/Game.cpp:117-127 | the events come first, then the triggers; the latch is what the triggers leave; a game still running after them is advanced by exactly one `Game::update`, and a finished one is left as it is; the window stays open exactly when it was open and no close event came |
| Session.RunningFrameUpdates | src/Game.cpp:119-123 | a running frame with no events and idle triggers is exactly one `Game::update` and keeps the latch |
| Session.HandleEventsOpen | src/Game.cpp:135-136 | a poll closes the window exactly when it holds a close event |
| Session.PlayingKeepsTheFight | src/Game.cpp:138-182 | events never change health, enemies, the spawn clock or the game-over flag |
| Session.NoRestartWhilePlaying | src/Game.cpp:185-189 | `R` does nothing while the game runs |
| Session.GameOverFreezes | src/Game.cpp:121-123 | once the game is over, a frame without `R` leaves the game exactly as it is: no events act, no triggers fire and no update runs |
| Session.HeldTriggersFireOnce | src/Game.cpp:199-209 | a trigger held since the previous poll neither shoots nor throws again |
| Session.PlayingConsistent | src/Game.cpp:138-182 | every playing event keeps the weapon and the players in agreement |
| Session.HandleEventsConsistent | src/Game.cpp:134-190 | a whole poll of events keeps the weapon and the players in agreement |
| Session.TickConsistent | src/Game.cpp:117-127 | every pass of the loop keeps the weapon and the players in agreement |

## Left out

- Rendering, fonts and UI text (`render`, `initializeUI`, `updateControlsText`, every `draw` and shape call) and the weapon's displayed rotation: presentation only.
- Console output and the window itself: a close event only clears `Session.open`.
- Floating point: the model computes in exact `real`, so `float` rounding is not modelled.
- Square root, `atan2`, `cos`, `sin`, `toDegrees` and `toRadians` are the uninterpreted `Geometry` operations. `normalize` of a nonzero vector is `Geometry.unit`, about which nothing is assumed.
- Enemies.Update: the step of an enemy away from its target is stated only through Enemies.ApproachesTarget, under the assumption that the unit operation returns a positive multiple of the gap.
- The clocks: `dt` and `now` are parameters. The frame clock is restarted only inside `update`, so the first `dt` after a game over includes the pause; the model takes whatever `dt` it is given.
- The random spawn coordinates are the `SpawnDraw` parameter; `Game.DrawInRange` states the ranges of the distributions.
- The mouse position is taken in world coordinates; the pixel-to-world mapping is a window operation.
- Health is an unbounded integer. The source's `int` could only wrap after about 2³¹ hits, long after the game is over.
- The getters of `Player` are the datatype's fields.
- Weapons.ThrownWeaponLands: 1951 frames is a sufficient bound, not the exact landing frame.
- Weapons.UpdateTimes applies the weapon update with one fixed carry point. A flying weapon never reads it, so the landing lemmas lose nothing.

## Findings

| source | as written | input that shows it | evidently intended | confidence | as-written member | corrected member |
|---|---|---|---|---|---|---|
| src/Game.cpp:40-41 | the weapon is created at (600, 400) and `checkPickup(player1)` is called with player 1 at (300, 400); the pickup needs a distance below 40 | any start or restart: the distance is 300, so nobody holds the weapon | player 1 starts with the weapon, as the comment on the pickup call says | not executed | Game.RestartLeavesWeaponGrounded | Game.RestartArmed |
| src/Game.cpp:316-317 | the bullet's starting side is read off its spawn point, 30 ahead of the shooter | player 1 at x = 578 aiming at angle 0 fires from x = 608; the bullet counts as right-started, is never stopped at the line and flies on through player 2's half | a bullet belongs to the half of the player who fired it and stops at the line | not executed | Game.ShotCrossesMidline | Game.SidedShotStaysInHalf |

=== FILE: bullets.dfy ===
/**
 * The bullet (src/Bullet.cpp): straight-line motion at `BulletSpeed`, a
 * side-aware stop at the dividing line, bounds and hit tests.
 */
module Bullets {
  import opened Vectors
  import opened Constants
  import opened Enemies

  /** `startedLeft` records the half the bullet was created in. */
  datatype Bullet = Bullet(pos: Vec2, vel: Vec2, startedLeft: bool)

  /** The bullet constructor: direction normalized and scaled to `BulletSpeed`. */
  function New(x: real, y: real, dir: Vec2, geo: Geometry): (b: Bullet)
    ensures b.pos == Vec2(x, y)
    ensures b.startedLeft <==> x < HalfWidth
    ensures dir == Zero ==> b.vel == Zero
    ensures dir != Zero ==> b.vel == Scale(geo.unit(dir), BulletSpeed)
  {
    Bullet(Vec2(x, y), Scale(Normalize(dir, geo), BulletSpeed), x < HalfWidth)
  }

  /** `Bullet::update`. */
  function Update(b: Bullet, dt: real): (r: Bullet)
    ensures r.vel == b.vel && r.startedLeft == b.startedLeft
    ensures r.pos.x == b.pos.x + b.vel.x * dt && r.pos.y == b.pos.y + b.vel.y * dt
  {
    b.(pos := Add(b.pos, Scale(b.vel, dt)))
  }

  /** Motion is additive in time: two updates equal one update over the summed time. */
  lemma UpdateAdditive(b: Bullet, dt1: real, dt2: real)
    ensures Update(Update(b, dt1), dt2) == Update(b, dt1 + dt2)
  {
    assert b.vel.x * dt1 + b.vel.x * dt2 == b.vel.x * (dt1 + dt2);
    assert b.vel.y * dt1 + b.vel.y * dt2 == b.vel.y * (dt1 + dt2);
  }

  /** A bullet made with a zero direction never moves. */
  lemma ZeroDirectionStands(x: real, y: real, geo: Geometry, dt: real)
    ensures Update(New(x, y, Zero, geo), dt).pos == Vec2(x, y)
  {
  }

  /** `Bullet::isOutOfBounds`. */
  predicate IsOutOfBounds(b: Bullet) {
    b.pos.x < 0.0 || b.pos.x > WindowWidth || b.pos.y < 0.0 || b.pos.y > WindowHeight
  }

  /** The closed arena rectangle [0, WindowWidth] x [0, WindowHeight]. */
  predicate InArena(v: Vec2) {
    0.0 <= v.x <= WindowWidth && 0.0 <= v.y <= WindowHeight
  }

  /** A bullet is out of bounds exactly when it has left the closed arena, so the edges count as inside. */
  lemma OutOfBoundsIffOutsideArena(b: Bullet)
    ensures IsOutOfBounds(b) <==> !InArena(b.pos)
  {
  }

  /** `Bullet::shouldStopAtMiddle`: within `MidlineTolerance` of the line, or past it, as seen from the starting side. */
  predicate ShouldStopAtMiddle(b: Bullet) {
    (b.startedLeft && b.pos.x >= HalfWidth - MidlineTolerance)
    || (!b.startedLeft && b.pos.x <= HalfWidth + MidlineTolerance)
  }

  /** A bullet that does not stop is strictly on its own side of the band [595, 605]. */
  lemma NotStoppedStaysOnItsSide(b: Bullet)
    ensures !ShouldStopAtMiddle(b) <==> (if b.startedLeft then b.pos.x < 595.0 else b.pos.x > 605.0)
  {
  }

  /** The boundary cases: a left bullet stops from x = 595 on and not at 594; a right one from 605 down. */
  lemma MidlineEdges(y: real, vel: Vec2)
    ensures ShouldStopAtMiddle(Bullet(Vec2(595.0, y), vel, true))
    ensures !ShouldStopAtMiddle(Bullet(Vec2(594.0, y), vel, true))
    ensures ShouldStopAtMiddle(Bullet(Vec2(605.0, y), vel, false))
    ensures !ShouldStopAtMiddle(Bullet(Vec2(606.0, y), vel, false))
  {
  }

  /** The sum of the two radii: how close a bullet must come to an enemy to hit it. */
  const HitRange: real := BulletRadius + EnemyRadius

  /** `Bullet::checkHit`. */
  predicate CheckHit(b: Bullet, e: Enemy) {
    Within(b.pos, e.pos, HitRange)
  }

  /** The hit test is `distance < BULLET_RADIUS + ENEMY_RADIUS` = 20. */
  lemma HitIffDistanceBelow(b: Bullet, e: Enemy, d: real)
    requires IsDistance(b.pos, e.pos, d)
    ensures CheckHit(b, e) <==> d < 20.0
  {
    WithinIffDistanceBelow(b.pos, e.pos, d, HitRange);
  }
}

=== FILE: constants.dfy ===
/**
 * The fixed gameplay constants of the arena (include/Constants.h), together with
 * the literals that the entity code writes inline. All of them are reals, so that
 * the model can compare them directly with positions.
 */
module Constants {

  // Window
  const WindowWidth: real := 1200.0
  const WindowHeight: real := 800.0
  /** The x coordinate of the dividing line between the two halves. */
  const HalfWidth: real := WindowWidth / 2.0

  // Gameplay
  const PlayerSpeed: real := 200.0
  const EnemySpeed: real := 80.0
  const BulletSpeed: real := 500.0
  const WeaponThrowSpeed: real := 400.0
  const PlayerMaxHealth: int := 3
  const EnemySpawnInterval: real := 2.0

  // Sizes
  const PlayerRadius: real := 20.0
  const EnemyRadius: real := 15.0
  const BulletRadius: real := 5.0

  // Controller
  const JoystickDeadzone: real := 15.0
  /** Stick axes range over [-100, 100]; movement divides them by this. */
  const AxisScale: real := 100.0
  /** The trigger axis must pass this value (either way) to count as pressed. */
  const TriggerThreshold: real := 50.0

  // Literals of the weapon code
  const PickupRange: real := 40.0
  const ThrowCooldown: real := 0.3
  const FlightDamping: real := 0.98
  const LandingSpeed: real := 10.0
  /** Distance ahead of a player at which a held weapon sits and a bullet is spawned. */
  const CarryOffset: real := 30.0

  // Literals of the bullet and player code
  const MidlineTolerance: real := 5.0
  /** Extra gap a player keeps from the dividing line. */
  const MidlineGap: real := 2.0

  // Literals of the spawner
  /** More than this many enemies after a spawn tick triggers two extra spawns. */
  const CrowdThreshold: int := 10
  const SpawnMargin: real := 50.0
}

=== FILE: enemies.dfy ===
/**
 * The enemy (src/Enemy.cpp): a point that walks at `EnemySpeed` straight at the
 * current position of its target player.
 */
module Enemies {
  import opened Optional
  import opened Vectors
  import opened Constants
  import opened Players

  /** `target` is `None` for the null target the code tolerates. */
  datatype Enemy = Enemy(pos: Vec2, target: Option<PlayerId>)

  /** The point an enemy walks towards, if it has a target. */
  function Goal(e: Enemy, ps: Pair): Option<Vec2> {
    match e.target
    case None => None
    case Some(id) => Some(ps.At(id).pos)
  }

  /** `Enemy::update`: one step of `EnemySpeed * dt` along the normalized direction to the target. */
  function Update(e: Enemy, dt: real, ps: Pair, geo: Geometry): (r: Enemy)
    ensures r.target == e.target
    ensures e.target == None ==> r == e
    ensures Goal(e, ps) == Some(e.pos) ==> r == e
  {
    match Goal(e, ps)
    case None => e
    case Some(goal) =>
      var direction := Normalize(Sub(goal, e.pos), geo);
      e.(pos := Add(e.pos, Scale(direction, EnemySpeed * dt)))
  }

  /** The sum of the two radii: how close an enemy may come to a player before it strikes. */
  const CollisionRange: real := PlayerRadius + EnemyRadius

  /** `Enemy::checkCollision`: a query, it returns a flag and changes nothing. */
  predicate CheckCollision(e: Enemy, p: Player) {
    Within(e.pos, p.pos, CollisionRange)
  }

  /** The collision test is `distance < PLAYER_RADIUS + ENEMY_RADIUS` = 35. */
  lemma CollisionIffDistanceBelow(e: Enemy, p: Player, d: real)
    requires IsDistance(e.pos, p.pos, d)
    ensures CheckCollision(e, p) <==> d < 35.0
  {
    WithinIffDistanceBelow(e.pos, p.pos, d, CollisionRange);
  }

  /** The moves of an enemy depend on the players' positions only, not on their health or weapon. */
  lemma UpdateSeesPositionsOnly(e: Enemy, dt: real, ps: Pair, qs: Pair, geo: Geometry)
    requires ps.p1.pos == qs.p1.pos && ps.p2.pos == qs.p2.pos
    ensures Update(e, dt, ps, geo) == Update(e, dt, qs, geo)
  {
    assert Goal(e, ps) == Goal(e, qs);
  }

  /**
   * An enemy that is apart from a stationary target and that the exact
   * normalizer points at it (`unit(v) == v * k` with `k > 0`) gets strictly
   * closer, provided the step does not overshoot to twice the separation
   * (`EnemySpeed * dt * k < 2`, with `k` the inverse of the separation).
   */
  lemma ApproachesTarget(e: Enemy, dt: real, ps: Pair, geo: Geometry, k: real)
    requires e.target.Some? && e.pos != ps.At(e.target.value).pos
    requires geo.unit(Sub(ps.At(e.target.value).pos, e.pos)) == Scale(Sub(ps.At(e.target.value).pos, e.pos), k)
    requires k > 0.0 && dt > 0.0 && EnemySpeed * dt * k < 2.0
    ensures DistanceSq(Update(e, dt, ps, geo).pos, ps.At(e.target.value).pos) < DistanceSq(e.pos, ps.At(e.target.value).pos)
  {
    var goal := ps.At(e.target.value).pos;
    var gap := Sub(goal, e.pos);
    var s := EnemySpeed * dt * k;
    var r := Update(e, dt, ps, geo);
    assert gap != Zero;
    assert r.pos == Add(e.pos, Scale(Scale(gap, k), EnemySpeed * dt));
    var left := Sub(r.pos, goal);
    assert left.x == (s - 1.0) * gap.x && left.y == (s - 1.0) * gap.y by {
      assert gap.x * k * (EnemySpeed * dt) == s * gap.x;
      assert gap.y * k * (EnemySpeed * dt) == s * gap.y;
    }
    ShrinkFactor(s, gap, left);
    calc {
      DistanceSq(e.pos, goal);
      == LengthSq(Sub(e.pos, goal));
      == { assert Sub(e.pos, goal) == Scale(gap, -1.0); }
      LengthSq(gap);
    }
  }

  /** Scaling a non-zero vector by a factor strictly between -1 and 1 shortens it. */
  lemma ShrinkFactor(s: real, gap: Vec2, left: Vec2)
    requires 0.0 < s < 2.0 && gap != Zero
    requires left.x == (s - 1.0) * gap.x && left.y == (s - 1.0) * gap.y
    ensures LengthSq(left) < LengthSq(gap)
  {
    var c := (s - 1.0) * (s - 1.0);
    assert c < 1.0 by {
      if s - 1.0 >= 0.0 {
        calc {
          (s - 1.0) * (s - 1.0);
          <= { ScaleNonStrict(s - 1.0, s - 1.0, 1.0); }
          (s - 1.0) * 1.0;
          < 1.0;
        }
      } else {
        calc {
          (s - 1.0) * (s - 1.0);
          == (1.0 - s) * (1.0 - s);
          <= { ScaleNonStrict(1.0 - s, 1.0 - s, 1.0); }
          (1.0 - s) * 1.0;
          < 1.0;
        }
      }
    }
    assert c >= 0.0 by { SquareNonNegative(s - 1.0); }
    calc {
      LengthSq(left);
      == left.x * left.x + left.y * left.y;
      == { assert left.x * left.x == c * (gap.x * gap.x);
           assert left.y * left.y == c * (gap.y * gap.y); }
      c * (gap.x * gap.x) + c * (gap.y * gap.y);
      == c * LengthSq(gap);
      < { LengthSqPositive(gap); ScaleBelowOne(c, LengthSq(gap)); }
      LengthSq(gap);
    }
  }
}

=== FILE: game.dfy ===
/**
 * The per-frame orchestration of src/Game.cpp: the game state, the fixed order
 * in which `Game::update` advances it, shooting, and restarting.
 */
module Game {
  import opened Optional
  import opened Vectors
  import opened Constants
  import opened Seqs
  import opened Players
  import opened Enemies
  import opened Bullets
  import opened Weapons

  /** The four random draws of a spawn tick: the two side spawns' y and the two extra spawns' x. */
  datatype SpawnDraw = SpawnDraw(y1: real, y2: real, x1: real, x2: real)

  /**
   * What one frame reads from outside: the frame time `dt` (from the frame
   * clock), the current time `now` (read against the spawn clock), the input
   * snapshot and the spawner's random draws.
   */
  datatype Frame = Frame(dt: real, now: real, input: Input, draw: SpawnDraw)

  /** `spawnStart` is the time at which the spawn clock was last restarted. */
  datatype GameState = GameState(
    players: Pair,
    weapon: Weapon,
    enemies: seq<Enemy>,
    bullets: seq<Bullet>,
    gameOver: bool,
    spawnStart: real)

  /**
   * The weapon and the players agree: the weapon is never held and flying at
   * once, a player has the weapon exactly when it is the holder, and the
   * cooldown is never negative.
   */
  predicate Consistent(g: GameState) {
    && Exclusive(g.weapon)
    && (g.players.p1.hasWeapon <==> g.weapon.holder == Some(Player1))
    && (g.players.p2.hasWeapon <==> g.weapon.holder == Some(Player2))
    && g.weapon.throwCooldown >= 0.0
  }

  // ---------------------------------------------------------------------------
  // Stage 1 and 2: players and weapon

  function MovePlayers(ps: Pair, dt: real, input: Input, geo: Geometry): (r: Pair)
    ensures r.p1 == Players.Update(ps.p1, dt, input, geo)
    ensures r.p2 == Players.Update(ps.p2, dt, input, geo)
  {
    Pair(Players.Update(ps.p1, dt, input, geo), Players.Update(ps.p2, dt, input, geo))
  }

  /** Where the holder carries the weapon: `CarryOffset` ahead along its facing. */
  function CarryPoint(w: Weapon, ps: Pair, geo: Geometry): Vec2 {
    match w.holder
    case None => w.pos
    case Some(id) => Add(ps.At(id).pos, Scale(geo.heading(ps.At(id).rotation), CarryOffset))
  }

  /** Player 1 tries to pick the weapon up first, then player 2. */
  function Pickups(w: Weapon, ps: Pair): (r: Pickup)
    ensures r.ok <==> r.weapon.holder != w.holder
    ensures w.holder.Some? ==> r.weapon == w && r.players == ps
    ensures CheckPickup(w, Player1, ps).ok ==> r == CheckPickup(w, Player1, ps)
    ensures CheckPickup(w, Player1, ps).ok ==> r.weapon.holder == Some(Player1)
    ensures !CheckPickup(w, Player1, ps).ok ==> r == CheckPickup(w, Player2, ps)
    ensures r.players.p1.health == ps.p1.health && r.players.p2.health == ps.p2.health
    ensures r.players.p1.pos == ps.p1.pos && r.players.p2.pos == ps.p2.pos
  {
    var first := CheckPickup(w, Player1, ps);
    var second := CheckPickup(first.weapon, Player2, first.players);
    Pickup(first.ok || second.ok, second.weapon, second.players)
  }

  /**
   * When both players are within reach of an unheld weapon and player 1 is not
   * locked out, player 1 gets it.
   */
  lemma PickupOrderFavoursPlayer1(w: Weapon, ps: Pair)
    requires w.holder == None && !Blocked(w, Player1)
    requires InReach(w, ps.p1) && InReach(w, ps.p2)
    ensures Pickups(w, ps).weapon.holder == Some(Player1)
    ensures Pickups(w, ps).players.p1.hasWeapon
  {
  }

  // ---------------------------------------------------------------------------
  // Stage 3: spawning

  predicate SpawnDue(g: GameState, now: real) {
    now - g.spawnStart > EnemySpawnInterval
  }

  /**
   * A spawn tick: one enemy at the left wall for player 1 and one at the right
   * wall for player 2, then, when that makes more than `CrowdThreshold`, one at
   * the top for player 1 and one at the bottom for player 2.
   */
  function Spawn(es: seq<Enemy>, draw: SpawnDraw): (r: seq<Enemy>)
    ensures |r| == |es| + (if |es| + 2 > CrowdThreshold then 4 else 2)
    ensures r[..|es|] == es
    ensures r[|es|] == Enemy(Vec2(0.0, draw.y1), Some(Player1))
    ensures r[|es| + 1] == Enemy(Vec2(WindowWidth, draw.y2), Some(Player2))
    ensures |es| + 2 > CrowdThreshold ==>
      && r[|es| + 2] == Enemy(Vec2(draw.x1, 0.0), Some(Player1))
      && r[|es| + 3] == Enemy(Vec2(draw.x2, WindowHeight), Some(Player2))
  {
    var sides := es + [Enemy(Vec2(0.0, draw.y1), Some(Player1)), Enemy(Vec2(WindowWidth, draw.y2), Some(Player2))];
    if |sides| > CrowdThreshold then
      sides + [Enemy(Vec2(draw.x1, 0.0), Some(Player1)), Enemy(Vec2(draw.x2, WindowHeight), Some(Player2))]
    else sides
  }

  /** The draws lie in the ranges of the spawner's distributions. */
  predicate DrawInRange(draw: SpawnDraw) {
    && SpawnMargin <= draw.y1 < WindowHeight - SpawnMargin
    && SpawnMargin <= draw.y2 < WindowHeight - SpawnMargin
    && SpawnMargin <= draw.x1 < HalfWidth - SpawnMargin
    && HalfWidth + SpawnMargin <= draw.x2 < WindowWidth - SpawnMargin
  }

  /** Every new enemy starts on the edge of the arena, in the half of the player it hunts. */
  lemma SpawnedOnTargetSide(es: seq<Enemy>, draw: SpawnDraw, i: nat)
    requires DrawInRange(draw)
    requires |es| <= i < |Spawn(es, draw)|
    ensures var e := Spawn(es, draw)[i];
      && InArena(e.pos)
      && e.target.Some?
      && (e.target == Some(Player1) <==> e.pos.x < HalfWidth)
  {
  }

  // ---------------------------------------------------------------------------
  // Stage 4: the enemy loop

  /** The player a moved enemy strikes: player 1 is checked before player 2. */
  function Strike(e: Enemy, ps: Pair): (r: Option<PlayerId>)
    ensures r == Some(Player1) <==> CheckCollision(e, ps.p1)
    ensures r == Some(Player2) <==> !CheckCollision(e, ps.p1) && CheckCollision(e, ps.p2)
  {
    if CheckCollision(e, ps.p1) then Some(Player1)
    else if CheckCollision(e, ps.p2) then Some(Player2)
    else None
  }

  /** Reference definitions for the enemy loop: move every enemy ... */
  function MoveEnemies(es: seq<Enemy>, dt: real, ps: Pair, geo: Geometry): (r: seq<Enemy>)
    ensures |r| == |es|
    ensures forall i :: 0 <= i < |es| ==> r[i] == Enemies.Update(es[i], dt, ps, geo)
  {
    seq(|es|, i requires 0 <= i < |es| => Enemies.Update(es[i], dt, ps, geo))
  }

  /** ... keep, in order, those that strike nobody ... */
  function Survivors(ms: seq<Enemy>, ps: Pair): seq<Enemy> {
    if ms == [] then []
    else (if Strike(ms[0], ps) == None then [ms[0]] else []) + Survivors(ms[1..], ps)
  }

  /** ... and count those that strike player `id`. */
  function Strikes(ms: seq<Enemy>, ps: Pair, id: PlayerId): nat {
    if ms == [] then 0
    else (if Strike(ms[0], ps) == Some(id) then 1 else 0) + Strikes(ms[1..], ps, id)
  }

  /** `ps` and `qs` place both players at the same points. */
  predicate SamePlaces(ps: Pair, qs: Pair) {
    ps.p1.pos == qs.p1.pos && ps.p2.pos == qs.p2.pos
  }

  lemma {:induction false} ReferenceSeesPlacesOnly(ms: seq<Enemy>, ps: Pair, qs: Pair)
    requires SamePlaces(ps, qs)
    ensures Survivors(ms, ps) == Survivors(ms, qs)
    ensures Strikes(ms, ps, Player1) == Strikes(ms, qs, Player1)
    ensures Strikes(ms, ps, Player2) == Strikes(ms, qs, Player2)
    decreases |ms|
  {
    if ms != [] {
      assert Strike(ms[0], ps) == Strike(ms[0], qs);
      ReferenceSeesPlacesOnly(ms[1..], ps, qs);
    }
  }

  /** The survivors are exactly the moved enemies that strike nobody, in their original order. */
  lemma {:induction false} SurvivorsMembers(ms: seq<Enemy>, ps: Pair)
    ensures Subseq(Survivors(ms, ps), ms)
    ensures forall e :: e in Survivors(ms, ps) <==> e in ms && Strike(e, ps) == None
    ensures |Survivors(ms, ps)| + Strikes(ms, ps, Player1) + Strikes(ms, ps, Player2) == |ms|
    decreases |ms|
  {
    if ms != [] {
      SurvivorsMembers(ms[1..], ps);
      var rest := Survivors(ms[1..], ps);
      if Strike(ms[0], ps) == None {
        assert Survivors(ms, ps) == [ms[0]] + rest;
        assert ([ms[0]] + rest)[1..] == rest;
      } else {
        assert Survivors(ms, ps) == rest;
      }
      assert ms == [ms[0]] + ms[1..];
    }
  }

  function Hurt(ps: Pair, strike: Option<PlayerId>): Pair {
    match strike
    case None => ps
    case Some(id) => ps.Put(id, TakeDamage(ps.At(id)))
  }

  /**
   * The enemy loop as the source runs it: move each enemy towards its target,
   * and when it then collides with player 1 (checked first) or player 2, that
   * player takes one point of damage at once and the enemy is erased.
   */
  function EnemyPass(es: seq<Enemy>, dt: real, ps: Pair, geo: Geometry): (r: (seq<Enemy>, Pair))
    ensures var ms := MoveEnemies(es, dt, ps, geo);
      && r.0 == Survivors(ms, ps)
      && r.1.p1 == Damaged(ps.p1, Strikes(ms, ps, Player1))
      && r.1.p2 == Damaged(ps.p2, Strikes(ms, ps, Player2))
    decreases |es|
  {
    if es == [] then ([], ps)
    else
      var e := Enemies.Update(es[0], dt, ps, geo);
      var strike := Strike(e, ps);
      var hurt := Hurt(ps, strike);
      var rest := EnemyPass(es[1..], dt, hurt, geo);
      PassStep(es, dt, ps, hurt, geo, rest);
      (if strike == None then [e] + rest.0 else rest.0, rest.1)
  }

  /** Moving the enemies does not depend on the players' health: only on where they stand. */
  lemma {:induction false} MoveSeesPlacesOnly(es: seq<Enemy>, dt: real, ps: Pair, qs: Pair, geo: Geometry)
    requires SamePlaces(ps, qs)
    ensures MoveEnemies(es, dt, ps, geo) == MoveEnemies(es, dt, qs, geo)
  {
    var a, b := MoveEnemies(es, dt, ps, geo), MoveEnemies(es, dt, qs, geo);
    forall i | 0 <= i < |es|
      ensures a[i] == b[i]
    {
      UpdateSeesPositionsOnly(es[i], dt, ps, qs, geo);
    }
  }

  lemma HurtKeepsPlaces(ps: Pair, strike: Option<PlayerId>)
    ensures SamePlaces(ps, Hurt(ps, strike))
    ensures Hurt(ps, strike).p1 == (if strike == Some(Player1) then TakeDamage(ps.p1) else ps.p1)
    ensures Hurt(ps, strike).p2 == (if strike == Some(Player2) then TakeDamage(ps.p2) else ps.p2)
  {
  }

  /** The induction step of `EnemyPass`: one enemy's strike, then the rest against the hurt players. */
  lemma PassStep(es: seq<Enemy>, dt: real, ps: Pair, hurt: Pair, geo: Geometry, rest: (seq<Enemy>, Pair))
    requires es != []
    requires hurt == Hurt(ps, Strike(Enemies.Update(es[0], dt, ps, geo), ps))
    requires var ms := MoveEnemies(es[1..], dt, hurt, geo);
      && rest.0 == Survivors(ms, hurt)
      && rest.1.p1 == Damaged(hurt.p1, Strikes(ms, hurt, Player1))
      && rest.1.p2 == Damaged(hurt.p2, Strikes(ms, hurt, Player2))
    ensures var e := Enemies.Update(es[0], dt, ps, geo);
      var ms := MoveEnemies(es, dt, ps, geo);
      && (if Strike(e, ps) == None then [e] + rest.0 else rest.0) == Survivors(ms, ps)
      && rest.1.p1 == Damaged(ps.p1, Strikes(ms, ps, Player1))
      && rest.1.p2 == Damaged(ps.p2, Strikes(ms, ps, Player2))
  {
    var e := Enemies.Update(es[0], dt, ps, geo);
    var strike := Strike(e, ps);
    HurtKeepsPlaces(ps, strike);
    MoveSeesPlacesOnly(es[1..], dt, hurt, ps, geo);
    var tail := MoveEnemies(es[1..], dt, ps, geo);
    MoveCons(es, dt, ps, geo);
    ReferenceSeesPlacesOnly(tail, hurt, ps);
    ReferenceCons(e, tail, ps);
    DamageStep(ps.p1, hurt.p1, strike == Some(Player1), Strikes(tail, ps, Player1), Strikes([e] + tail, ps, Player1), rest.1.p1);
    DamageStep(ps.p2, hurt.p2, strike == Some(Player2), Strikes(tail, ps, Player2), Strikes([e] + tail, ps, Player2), rest.1.p2);
  }

  lemma MoveCons(es: seq<Enemy>, dt: real, ps: Pair, geo: Geometry)
    requires es != []
    ensures MoveEnemies(es, dt, ps, geo) == [Enemies.Update(es[0], dt, ps, geo)] + MoveEnemies(es[1..], dt, ps, geo)
  {
  }

  lemma ReferenceCons(e: Enemy, tail: seq<Enemy>, ps: Pair)
    ensures Survivors([e] + tail, ps) == (if Strike(e, ps) == None then [e] else []) + Survivors(tail, ps)
    ensures Strikes([e] + tail, ps, Player1) == (if Strike(e, ps) == Some(Player1) then 1 else 0) + Strikes(tail, ps, Player1)
    ensures Strikes([e] + tail, ps, Player2) == (if Strike(e, ps) == Some(Player2) then 1 else 0) + Strikes(tail, ps, Player2)
  {
    assert ([e] + tail)[1..] == tail;
  }

  /** A player hit `k` times in all, the first possibly before the other `n`. */
  lemma DamageStep(p: Player, hurt: Player, hit: bool, n: nat, k: nat, result: Player)
    requires hurt == if hit then TakeDamage(p) else p
    requires k == (if hit then 1 else 0) + n
    requires result == Damaged(hurt, n)
    ensures result == Damaged(p, k)
  {
    if hit {
      DamageAfterOne(p, n);
    }
  }

  /** Taking one hit first and `n` later is taking `n + 1` hits. */
  lemma {:induction false} DamageAfterOne(p: Player, n: nat)
    ensures Damaged(TakeDamage(p), n) == Damaged(p, n + 1)
    decreases n
  {
    DamagedCount(TakeDamage(p), n);
    DamagedCount(p, n + 1);
  }

  /**
   * Each enemy removed by the enemy loop costs exactly one point of health, so
   * the health both players lose equals the number of enemies removed.
   */
  lemma EnemyPassAccounting(es: seq<Enemy>, dt: real, ps: Pair, geo: Geometry)
    ensures var r := EnemyPass(es, dt, ps, geo);
      (ps.p1.health - r.1.p1.health) + (ps.p2.health - r.1.p2.health) == |es| - |r.0|
    ensures var r := EnemyPass(es, dt, ps, geo);
      r.1.p1.(health := ps.p1.health) == ps.p1 && r.1.p2.(health := ps.p2.health) == ps.p2
  {
    var ms := MoveEnemies(es, dt, ps, geo);
    SurvivorsMembers(ms, ps);
    DamagedCount(ps.p1, Strikes(ms, ps, Player1));
    DamagedCount(ps.p2, Strikes(ms, ps, Player2));
  }

  // ---------------------------------------------------------------------------
  // Stage 5: the bullet loop

  /** The index of the first enemy in sequence order the bullet hits. */
  function FirstHit(b: Bullet, es: seq<Enemy>): (r: Option<nat>)
    ensures r.Some? ==> r.value < |es| && CheckHit(b, es[r.value])
    ensures r.Some? ==> forall j :: 0 <= j < r.value ==> !CheckHit(b, es[j])
    ensures r.None? <==> forall j :: 0 <= j < |es| ==> !CheckHit(b, es[j])
    ensures r.None? <==> HitsNone(b, es)
    decreases |es|
  {
    if es == [] then None
    else if CheckHit(b, es[0]) then Some(0)
    else match FirstHit(b, es[1..])
      case None => None
      case Some(i) => Some(i + 1)
  }

  /**
   * One bullet of the loop: move it; it is removed if it reached the line (the
   * enemies untouched), or if it hits an enemy (the first hit enemy is
   * removed with it), or if it is out of bounds; otherwise it is kept.
   */
  function BulletStep(b: Bullet, es: seq<Enemy>, dt: real): (r: (Option<Bullet>, seq<Enemy>))
    ensures var m := Bullets.Update(b, dt);
      && (ShouldStopAtMiddle(m) ==> r.1 == es)
      && (!ShouldStopAtMiddle(m) && FirstHit(m, es).Some? ==> r.1 == RemoveAt(es, FirstHit(m, es).value))
      && (FirstHit(m, es).None? ==> r.1 == es)
      && (r.0.Some? <==> !ShouldStopAtMiddle(m) && FirstHit(m, es).None? && !IsOutOfBounds(m))
      && (r.0.Some? ==> r.0.value == m)
    ensures Subseq(r.1, es)
    ensures |es| - |r.1| == (if r.1 == es then 0 else 1)
  {
    var m := Bullets.Update(b, dt);
    SubseqReflexive(es);
    if ShouldStopAtMiddle(m) then (None, es)
    else match FirstHit(m, es)
      case Some(i) =>
        RemoveAtIsSubseq(es, i);
        (None, RemoveAt(es, i))
      case None => if IsOutOfBounds(m) then (None, es) else (Some(m), es)
  }

  /** Reference for the bullet loop: every bullet moved by one step. */
  function MoveBullets(bs: seq<Bullet>, dt: real): (r: seq<Bullet>)
    ensures |r| == |bs|
    ensures forall i :: 0 <= i < |bs| ==> r[i] == Bullets.Update(bs[i], dt)
  {
    seq(|bs|, i requires 0 <= i < |bs| => Bullets.Update(bs[i], dt))
  }

  /** How many of the moved bullets `ms` are short of the line and in bounds: each of them is kept or takes an enemy. */
  function Live(ms: seq<Bullet>): (n: nat)
    ensures n <= |ms|
  {
    if ms == [] then 0
    else (if !ShouldStopAtMiddle(ms[0]) && !IsOutOfBounds(ms[0]) then 1 else 0) + Live(ms[1..])
  }

  /** The moved bullet `m` hits none of `es`. */
  predicate HitsNone(m: Bullet, es: seq<Enemy>) {
    forall e :: e in es ==> !CheckHit(m, e)
  }

  /** The moved bullet `m` survives against `es`: short of the line, in bounds, and hitting nothing. */
  predicate Clear(m: Bullet, es: seq<Enemy>) {
    !ShouldStopAtMiddle(m) && !IsOutOfBounds(m) && HitsNone(m, es)
  }

  /**
   * The bullet loop: every bullet in order, each against the enemies the
   * earlier bullets left. The kept bullets are moved bullets, in their order;
   * every moved bullet clear of all the enemies is kept; a kept bullet is in
   * bounds, short of the line, and hits none of the enemies left; the enemies
   * left are a subsequence of those before, and every removed enemy took a
   * bullet with it.
   */
  function BulletPass(bs: seq<Bullet>, es: seq<Enemy>, dt: real): (r: (seq<Bullet>, seq<Enemy>))
    ensures Subseq(r.0, MoveBullets(bs, dt))
    ensures forall i :: 0 <= i < |bs| && Clear(Bullets.Update(bs[i], dt), es) ==> Bullets.Update(bs[i], dt) in r.0
    ensures forall b :: b in r.0 ==> !ShouldStopAtMiddle(b) && !IsOutOfBounds(b) && HitsNone(b, r.1)
    ensures Subseq(r.1, es)
    ensures forall e :: e in es && e !in r.1 ==> exists i :: 0 <= i < |bs| && CheckHit(Bullets.Update(bs[i], dt), e)
    ensures |r.0| + (|es| - |r.1|) <= |bs|
    ensures |es| - |r.1| >= Live(MoveBullets(bs, dt)) - |r.0|
    ensures |r.0| <= |bs|
    decreases |bs|
  {
    if bs == [] then
      SubseqReflexive(es);
      ([], es)
    else
      var step := BulletStep(bs[0], es, dt);
      var rest := BulletPass(bs[1..], step.1, dt);
      var kept := match step.0 case Some(b) => [b] + rest.0 case None => rest.0;
      SubseqTransitive(rest.1, step.1, es);
      SubseqLength(step.1, es);
      SubseqLength(rest.1, step.1);
      KeepStep(bs, es, dt, step, rest, kept);
      HitStep(bs, es, dt, step, rest.1);
      assert MoveBullets(bs, dt)[1..] == MoveBullets(bs[1..], dt);
      (kept, rest.1)
  }

  /** An enemy the bullet step removes is one the moved bullet hits. */
  lemma StepRemovesHit(b: Bullet, es: seq<Enemy>, dt: real, e: Enemy)
    requires e in es && e !in BulletStep(b, es, dt).1
    ensures CheckHit(Bullets.Update(b, dt), e)
  {
    var m := Bullets.Update(b, dt);
    var k := FirstHit(m, es).value;
    if e != es[k] {
      RemoveAtKeepsOthers(es, k, e);
    }
  }

  /** The hit accounting of `BulletPass`: an enemy gone after the pass was hit by the first bullet or by a later one. */
  lemma HitStep(bs: seq<Bullet>, es: seq<Enemy>, dt: real, step: (Option<Bullet>, seq<Enemy>), left: seq<Enemy>)
    requires bs != []
    requires step == BulletStep(bs[0], es, dt)
    requires forall e :: e in step.1 && e !in left ==> exists i :: 0 <= i < |bs[1..]| && CheckHit(Bullets.Update(bs[1..][i], dt), e)
    ensures forall e :: e in es && e !in left ==> exists i :: 0 <= i < |bs| && CheckHit(Bullets.Update(bs[i], dt), e)
  {
    forall e | e in es && e !in left
      ensures exists i :: 0 <= i < |bs| && CheckHit(Bullets.Update(bs[i], dt), e)
    {
      if e in step.1 {
        var i :| 0 <= i < |bs[1..]| && CheckHit(Bullets.Update(bs[1..][i], dt), e);
        assert bs[1..][i] == bs[i + 1];
      } else {
        StepRemovesHit(bs[0], es, dt, e);
      }
    }
  }

  /** The induction step of `BulletPass`: the first bullet's outcome put in front of the rest's. */
  lemma KeepStep(bs: seq<Bullet>, es: seq<Enemy>, dt: real, step: (Option<Bullet>, seq<Enemy>),
                 rest: (seq<Bullet>, seq<Enemy>), kept: seq<Bullet>)
    requires bs != []
    requires step == BulletStep(bs[0], es, dt)
    requires Subseq(rest.0, MoveBullets(bs[1..], dt))
    requires forall i :: 0 <= i < |bs[1..]| && Clear(Bullets.Update(bs[1..][i], dt), step.1) ==> Bullets.Update(bs[1..][i], dt) in rest.0
    requires forall b :: b in rest.0 ==> !ShouldStopAtMiddle(b) && !IsOutOfBounds(b) && HitsNone(b, rest.1)
    requires Subseq(rest.1, step.1)
    requires kept == match step.0 case Some(b) => [b] + rest.0 case None => rest.0
    ensures Subseq(kept, MoveBullets(bs, dt))
    ensures forall i :: 0 <= i < |bs| && Clear(Bullets.Update(bs[i], dt), es) ==> Bullets.Update(bs[i], dt) in kept
    ensures forall b :: b in kept ==> !ShouldStopAtMiddle(b) && !IsOutOfBounds(b) && HitsNone(b, rest.1)
  {
    var m := Bullets.Update(bs[0], dt);
    var moved := MoveBullets(bs, dt);
    assert moved == [m] + MoveBullets(bs[1..], dt);
    SubseqPrepend(m, rest.0, MoveBullets(bs[1..], dt));
    SubseqMembers(step.1, es);
    SubseqMembers(rest.1, step.1);
    forall i | 0 <= i < |bs| && Clear(Bullets.Update(bs[i], dt), es)
      ensures Bullets.Update(bs[i], dt) in kept
    {
      if i == 0 {
        assert FirstHit(m, es).None?;
      } else {
        assert bs[i] == bs[1..][i - 1];
        assert Clear(Bullets.Update(bs[i], dt), step.1);
      }
    }
    if step.0.Some? {
      assert step.0.value == m && FirstHit(m, es).None?;
      assert HitsNone(m, es);
    }
  }

  // ---------------------------------------------------------------------------
  // The whole frame

  /** The enemies after the spawn stage of a frame. */
  function Spawned(g: GameState, f: Frame): (r: seq<Enemy>)
    ensures SpawnDue(g, f.now) ==> r == Spawn(g.enemies, f.draw)
    ensures !SpawnDue(g, f.now) ==> r == g.enemies
    ensures |r| >= |g.enemies|
  {
    if SpawnDue(g, f.now) then Spawn(g.enemies, f.draw) else g.enemies
  }

  /**
   * `Game::update`: the stages in their fixed order, then the game-over test.
   * Each stage works on what the stage before it left: the moved players
   * carry the weapon, then try to pick it up, the spawn stage may add
   * enemies, the enemy loop strikes the players after the pickups, and the
   * bullet loop runs against the enemies the enemy loop left.
   */
  function Update(g: GameState, f: Frame, geo: Geometry): (r: GameState)
    ensures var ps := MovePlayers(g.players, f.dt, f.input, geo);
      var picked := Pickups(Weapons.Update(g.weapon, f.dt, CarryPoint(g.weapon, ps, geo)), ps);
      var enemyPass := EnemyPass(Spawned(g, f), f.dt, picked.players, geo);
      && r.weapon == picked.weapon
      && r.players == enemyPass.1
      && (r.bullets, r.enemies) == BulletPass(g.bullets, enemyPass.0, f.dt)
    ensures (g.players.p1.health - r.players.p1.health) + (g.players.p2.health - r.players.p2.health)
            <= |Spawned(g, f)| - |r.enemies|
    ensures r.players.p1.pos == Players.Update(g.players.p1, f.dt, f.input, geo).pos
    ensures r.players.p2.pos == Players.Update(g.players.p2, f.dt, f.input, geo).pos
    ensures g.gameOver ==> r.gameOver
    ensures r.gameOver <==> g.gameOver || !IsAlive(r.players.p1) || !IsAlive(r.players.p2)
    ensures r.spawnStart == (if SpawnDue(g, f.now) then f.now else g.spawnStart)
    ensures Consistent(g) ==> Consistent(r)
  {
    var ps := MovePlayers(g.players, f.dt, f.input, geo);
    var w := Weapons.Update(g.weapon, f.dt, CarryPoint(g.weapon, ps, geo));
    var picked := Pickups(w, ps);
    var es := Spawned(g, f);
    var enemyPass := EnemyPass(es, f.dt, picked.players, geo);
    var bulletPass := BulletPass(g.bullets, enemyPass.0, f.dt);
    var players := enemyPass.1;
    EnemyPassAccounting(es, f.dt, picked.players, geo);
    SubseqLength(bulletPass.1, enemyPass.0);
    GameState(
      players,
      picked.weapon,
      bulletPass.1,
      bulletPass.0,
      g.gameOver || !IsAlive(players.p1) || !IsAlive(players.p2),
      if SpawnDue(g, f.now) then f.now else g.spawnStart)
  }

  // ---------------------------------------------------------------------------
  // Shooting, throwing, restarting

  /** The bullet a player fires, as `shoot` builds it: from `CarryOffset` ahead along its aim. */
  function Shot(p: Player, geo: Geometry): (b: Bullet)
    ensures b.pos == Add(p.pos, Scale(geo.heading(p.rotation), CarryOffset))
    ensures b.vel == Scale(Normalize(geo.heading(p.rotation), geo), BulletSpeed)
    ensures b.startedLeft <==> b.pos.x < HalfWidth
  {
    var aim := geo.heading(p.rotation);
    var spawn := Add(p.pos, Scale(aim, CarryOffset));
    Bullets.New(spawn.x, spawn.y, aim, geo)
  }

  /** `Game::shoot`: a player with the weapon fires one bullet; nothing else changes. */
  function Shoot(g: GameState, who: PlayerId, geo: Geometry): (r: GameState)
    ensures |r.bullets| == |g.bullets| + (if g.players.At(who).hasWeapon then 1 else 0)
    ensures r.bullets[..|g.bullets|] == g.bullets
    ensures g.players.At(who).hasWeapon ==> r.bullets[|g.bullets|] == Shot(g.players.At(who), geo)
    ensures r.(bullets := g.bullets) == g
  {
    var p := g.players.At(who);
    if p.hasWeapon then g.(bullets := g.bullets + [Shot(p, geo)]) else g
  }

  /** A throw from `who` to the other player. */
  function Throw(g: GameState, who: PlayerId, geo: Geometry): (r: GameState)
    ensures Consistent(g) ==> Consistent(r)
    ensures r.(weapon := g.weapon, players := g.players) == g
    ensures Consistent(g) && g.players.At(who).hasWeapon ==>
      && PhaseOf(r.weapon) == Flying && r.weapon.lastHolder == Some(who)
      && !r.players.At(who).hasWeapon
      && r.players.At(who.Other()) == g.players.At(who.Other())
      && r.weapon.throwCooldown == ThrowCooldown && Blocked(r.weapon, who)
      && r.weapon.vel == Scale(Normalize(Sub(g.players.At(who.Other()).pos, g.weapon.pos), geo), WeaponThrowSpeed)
      && r.weapon.pos == g.weapon.pos && r.players.At(who) == SetHasWeapon(g.players.At(who), false)
    ensures !g.players.At(who).hasWeapon && Consistent(g) ==> r == g
  {
    var thrown := ThrowTo(g.weapon, Some(who), Some(who.Other()), g.players, geo);
    g.(weapon := thrown.0, players := thrown.1)
  }

  /** The starting positions: the middle of each half, and the middle of the arena for the weapon. */
  const Start1: Vec2 := Vec2(WindowWidth / 4.0, WindowHeight / 2.0)
  const Start2: Vec2 := Vec2(3.0 * WindowWidth / 4.0, WindowHeight / 2.0)
  const WeaponStart: Vec2 := Vec2(WindowWidth / 2.0, WindowHeight / 2.0)

  /** The players, the weapon and the lists as the constructor and `restart` build them. */
  function Fresh(players: Pair, now: real): GameState {
    var w := Weapons.New(WeaponStart.x, WeaponStart.y);
    var picked := CheckPickup(w, Player1, players);
    GameState(picked.players, picked.weapon, [], [], false, now)
  }

  /** `Game::restart`: player 1 uses the controller exactly when joystick 0 is connected. */
  function Restart(joystick0: bool, now: real): (r: GameState)
    ensures r.enemies == [] && r.bullets == [] && !r.gameOver
    ensures r.players.p1.health == PlayerMaxHealth && r.players.p2.health == PlayerMaxHealth
    ensures r.players.p1.isControllerPlayer == joystick0 && !r.players.p2.isControllerPlayer
    ensures r.spawnStart == now
    ensures r.players.p1.pos == Start1 && r.players.p2.pos == Start2
    ensures r.players.p1.rotation == 0.0 && r.players.p2.rotation == 0.0
    ensures !r.players.p2.hasWeapon
    ensures r.weapon.pos == WeaponStart && !r.weapon.isFlying && r.weapon.vel == Zero
    ensures r.weapon.lastHolder == None && r.weapon.throwCooldown == 0.0
    ensures Consistent(r)
  {
    Fresh(Pair(Players.New(Start1.x, Start1.y, joystick0, 0), Players.New(Start2.x, Start2.y, false, 0)), now)
  }

  /** The constructor: player 1 starts as a controller player and falls back to the keyboard without joystick 0. */
  function Init(joystick0: bool, now: real): (r: GameState)
    ensures r.players.p1.isControllerPlayer == joystick0 && !r.players.p2.isControllerPlayer
    ensures r.players.p1.pos == Start1 && r.players.p2.pos == Start2
    ensures r.players.p1.health == PlayerMaxHealth && r.players.p2.health == PlayerMaxHealth
    ensures r.enemies == [] && r.bullets == [] && !r.gameOver && r.spawnStart == now
    ensures Consistent(r)
  {
    var p1 := Players.New(Start1.x, Start1.y, true, 0);
    var p1' := if joystick0 then p1 else SetIsControllerPlayer(p1, false);
    Fresh(Pair(p1', Players.New(Start2.x, Start2.y, false, 0)), now)
  }

  /** The constructor and `restart` build the same state. */
  lemma InitIsRestart(joystick0: bool, now: real)
    ensures Init(joystick0, now) == Restart(joystick0, now)
  {
  }

  /**
   * The start-up pickup fails: the weapon starts 300 away from player 1, out
   * of the pickup range of 40, so after `restart` (and at construction) the
   * weapon lies on the ground and nobody holds it.
   */
  lemma RestartLeavesWeaponGrounded(joystick0: bool, now: real)
    ensures PhaseOf(Restart(joystick0, now).weapon) == Grounded
    ensures !Restart(joystick0, now).players.p1.hasWeapon
    ensures Restart(joystick0, now).weapon == Weapons.New(WeaponStart.x, WeaponStart.y)
  {
    assert DistanceSq(WeaponStart, Start1) == 90000.0;
  }

  // ---------------------------------------------------------------------------
  // Corrected definitions

  /**
   * As written, the side a bullet may not leave is read off its spawn point,
   * which lies `CarryOffset` ahead of the shooter: a player 1 standing at the
   * right edge of its half and aiming along the x axis fires a bullet that
   * counts as started on the right, so the bullet loop keeps it in player
   * 2's half.
   */
  lemma ShotCrossesMidline(geo: Geometry, y: real, dt: real)
    requires geo.heading(0.0) == Vec2(1.0, 0.0) && geo.unit(Vec2(1.0, 0.0)) == Vec2(1.0, 0.0)
    requires MinY <= y <= MaxY && 0.0 <= dt <= 1.0
    ensures var p := Player(Vec2(LeftMaxX, y), 0.0, PlayerMaxHealth, true, false, 0);
      var m := Bullets.Update(Shot(p, geo), dt);
      && OnLeftSide(p) && InOwnHalf(p)
      && !ShouldStopAtMiddle(m) && !IsOutOfBounds(m) && m.pos.x > HalfWidth
      && BulletPass([Shot(p, geo)], [], dt).0 == [m]
  {
    var p := Player(Vec2(LeftMaxX, y), 0.0, PlayerMaxHealth, true, false, 0);
    var b := Shot(p, geo);
    assert b.pos.x == 608.0;
    assert b.vel == Vec2(BulletSpeed, 0.0);
  }

  /** The corrected bullet: it belongs to the half of the player who fired it. */
  function SidedShot(p: Player, geo: Geometry): (b: Bullet)
    ensures b.startedLeft <==> OnLeftSide(p)
    ensures b.(startedLeft := Shot(p, geo).startedLeft) == Shot(p, geo)
  {
    Shot(p, geo).(startedLeft := OnLeftSide(p))
  }

  /** `shoot` with the corrected bullet. */
  function ShootFromSide(g: GameState, who: PlayerId, geo: Geometry): (r: GameState)
    ensures |r.bullets| == |g.bullets| + (if g.players.At(who).hasWeapon then 1 else 0)
    ensures r.bullets[..|g.bullets|] == g.bullets
    ensures g.players.At(who).hasWeapon ==> r.bullets[|g.bullets|] == SidedShot(g.players.At(who), geo)
    ensures r.(bullets := g.bullets) == g
  {
    var p := g.players.At(who);
    if p.hasWeapon then g.(bullets := g.bullets + [SidedShot(p, geo)]) else g
  }

  /** Every bullet the bullet loop keeps lies in the half it started from. */
  lemma KeptBulletsOnTheirSide(bs: seq<Bullet>, es: seq<Enemy>, dt: real)
    ensures forall b :: b in BulletPass(bs, es, dt).0 ==> (b.startedLeft <==> b.pos.x < HalfWidth)
  {
    forall b | b in BulletPass(bs, es, dt).0
      ensures b.startedLeft <==> b.pos.x < HalfWidth
    {
      NotStoppedStaysOnItsSide(b);
    }
  }

  /** So a corrected bullet that is not stopped at once stays in the shooter's half. */
  lemma SidedShotStaysInHalf(p: Player, geo: Geometry, dt: real)
    ensures var m := Bullets.Update(SidedShot(p, geo), dt);
      !ShouldStopAtMiddle(m) ==> (OnLeftSide(p) <==> m.pos.x < HalfWidth)
  {
    NotStoppedStaysOnItsSide(Bullets.Update(SidedShot(p, geo), dt));
  }

  /**
   * The corrected start: the weapon is laid at player 1's starting point, so
   * the start-up pickup succeeds and player 1 starts armed.
   */
  function RestartArmed(joystick0: bool, now: real): (r: GameState)
    ensures r.enemies == [] && r.bullets == [] && !r.gameOver && r.spawnStart == now
    ensures r.players.p1.health == PlayerMaxHealth && r.players.p2.health == PlayerMaxHealth
    ensures r.players.p1.isControllerPlayer == joystick0 && !r.players.p2.isControllerPlayer
    ensures PhaseOf(r.weapon) == Held(Player1)
    ensures r.players.p1.hasWeapon && !r.players.p2.hasWeapon
    ensures Consistent(r)
  {
    var players := Pair(Players.New(Start1.x, Start1.y, joystick0, 0), Players.New(Start2.x, Start2.y, false, 0));
    var w := Weapons.New(Start1.x, Start1.y);
    InReachOfOwnSpot(w, players.p1);
    var picked := CheckPickup(w, Player1, players);
    GameState(picked.players, picked.weapon, [], [], false, now)
  }

  lemma InReachOfOwnSpot(w: Weapon, p: Player)
    requires w.pos == p.pos
    ensures InReach(w, p)
  {
    WithinSelf(p.pos, PickupRange);
  }

  /**
   * A throw from the hand lands within `LandingFrames` frames, provided the
   * normalised direction has components of magnitude at most one.
   */
  lemma ThrowLands(g: GameState, who: PlayerId, geo: Geometry, dt: real, carry: Vec2, n: nat)
    requires g.weapon.holder == Some(who)
    requires var u := Normalize(Sub(g.players.At(who.Other()).pos, g.weapon.pos), geo);
      Abs(u.x) <= 1.0 && Abs(u.y) <= 1.0
    requires n >= LandingFrames
    ensures !UpdateTimes(Throw(g, who, geo).weapon, dt, carry, n).isFlying
  {
    var u := Normalize(Sub(g.players.At(who.Other()).pos, g.weapon.pos), geo);
    var w := Throw(g, who, geo).weapon;
    assert w.vel == Scale(u, WeaponThrowSpeed);
    ThrowSpeedBound(u);
    ThrownWeaponLands(w, dt, carry, n);
  }

  lemma ThrowSpeedBound(u: Vec2)
    requires Abs(u.x) <= 1.0 && Abs(u.y) <= 1.0
    ensures Abs(Scale(u, WeaponThrowSpeed).x) <= WeaponThrowSpeed
    ensures Abs(Scale(u, WeaponThrowSpeed).y) <= WeaponThrowSpeed
  {
    AbsScale(u.x, WeaponThrowSpeed);
    AbsScale(u.y, WeaponThrowSpeed);
  }
}

=== FILE: optional.dfy ===
/** Optional values: the model's stand-in for the nullable `Player*` references of the game. */
module Optional {

  datatype Option<+T> = None | Some(value: T)
}

=== FILE: players.dfy ===
/**
 * The player (src/Player.cpp, include/Player.h): a position clamped to one half
 * of the arena, a facing angle, a health counter and the weapon flag.
 *
 * Input is passed in as a snapshot instead of being polled; the angle the
 * player faces comes from the uninterpreted `bearing` of `Geometry`.
 */
module Players {
  import opened Vectors
  import opened Constants

  /** The game's two players, `player1` (left) and `player2` (right). */
  datatype PlayerId = Player1 | Player2 {
    function Other(): (r: PlayerId)
      ensures r != this
    {
      if this == Player1 then Player2 else Player1
    }
  }

  datatype Player = Player(
    pos: Vec2,
    rotation: real,
    health: int,
    hasWeapon: bool,
    isControllerPlayer: bool,
    joystickId: int)

  /** Both players, addressed by `PlayerId`. */
  datatype Pair = Pair(p1: Player, p2: Player) {
    function At(id: PlayerId): Player {
      match id
      case Player1 => p1
      case Player2 => p2
    }

    function Put(id: PlayerId, p: Player): (r: Pair)
      ensures r.At(id) == p
      ensures r.At(id.Other()) == At(id.Other())
    {
      match id
      case Player1 => this.(p1 := p)
      case Player2 => this.(p2 := p)
    }
  }

  /** A new player: full health, no weapon, facing angle 0. */
  function New(x: real, y: real, useController: bool, joyId: int): (p: Player)
    ensures p.pos == Vec2(x, y)
    ensures p.health == PlayerMaxHealth && IsAlive(p)
    ensures !p.hasWeapon && p.rotation == 0.0
    ensures p.isControllerPlayer == useController && p.joystickId == joyId
  {
    Player(Vec2(x, y), 0.0, PlayerMaxHealth, false, useController, joyId)
  }

  predicate IsAlive(p: Player) {
    p.health > 0
  }

  /** Loses one point of health; there is no floor at zero. */
  function TakeDamage(p: Player): (r: Player)
    ensures r.health == p.health - 1
    ensures r.(health := p.health) == p
  {
    p.(health := p.health - 1)
  }

  /** `n` successive calls of `TakeDamage`. */
  function Damaged(p: Player, n: nat): Player
    decreases n
  {
    if n == 0 then p else TakeDamage(Damaged(p, n - 1))
  }

  /** `n` damage events cost exactly `n` health and change nothing else. */
  lemma {:induction false} DamagedCount(p: Player, n: nat)
    ensures Damaged(p, n).health == p.health - n
    ensures Damaged(p, n).(health := p.health) == p
    decreases n
  {
    if n > 0 {
      DamagedCount(p, n - 1);
    }
  }

  /** A fresh player survives fewer than `PlayerMaxHealth` hits and no more. */
  lemma FreshPlayerLifetime(p: Player, n: nat)
    requires p.health == PlayerMaxHealth
    ensures IsAlive(Damaged(p, n)) <==> n < PlayerMaxHealth
  {
    DamagedCount(p, n);
  }

  function SetHasWeapon(p: Player, has: bool): (r: Player)
    ensures r.hasWeapon == has
    ensures r.(hasWeapon := p.hasWeapon) == p
  {
    p.(hasWeapon := has)
  }

  function SetIsControllerPlayer(p: Player, isController: bool): (r: Player)
    ensures r.isControllerPlayer == isController
    ensures r.(isControllerPlayer := p.isControllerPlayer) == p
  {
    p.(isControllerPlayer := isController)
  }

  // ---------------------------------------------------------------------------
  // Input

  /** The movement keys the keyboard path reads. */
  datatype Keys = Keys(w: bool, a: bool, s: bool, d: bool)

  /** One joystick: the two sticks (X/Y move, U/V aim), the trigger axis Z and buttons 6 and 7. */
  datatype Stick = Stick(x: real, y: real, u: real, v: real, z: real, button6: bool, button7: bool)

  /**
   * What the player code reads in one frame: the keyboard, the mouse in world
   * coordinates, and the connected joysticks by id.
   */
  datatype Input = Input(keys: Keys, mouse: Vec2, joysticks: map<int, Stick>)

  function Abs(r: real): real {
    if r < 0.0 then -r else r
  }

  /** A stick axis outside the deadzone, scaled to [-1, 1]; zero inside it. */
  function StickAxis(axis: real): (r: real)
    ensures Abs(axis) <= JoystickDeadzone ==> r == 0.0
    ensures Abs(axis) > JoystickDeadzone ==> r * AxisScale == axis
  {
    if Abs(axis) > JoystickDeadzone then axis / AxisScale else 0.0
  }

  /** A pair of opposing keys gives -1, 0 or 1; both or neither give 0. */
  function KeyAxis(negative: bool, positive: bool): (r: real)
    ensures r == 0.0 <==> negative == positive
    ensures negative && !positive ==> r == -1.0
    ensures positive && !negative ==> r == 1.0
    ensures -1.0 <= r <= 1.0
  {
    (if negative then -1.0 else 0.0) + (if positive then 1.0 else 0.0)
  }

  /** The controller path is taken only when the player is a controller player and its joystick is connected. */
  predicate UsesController(p: Player, input: Input) {
    p.isControllerPlayer && p.joystickId in input.joysticks
  }

  /** The raw movement vector of this frame, before it is normalized. */
  function Movement(p: Player, input: Input): Vec2 {
    if UsesController(p, input) then
      var stick := input.joysticks[p.joystickId];
      Vec2(StickAxis(stick.x), StickAxis(stick.y))
    else
      Vec2(KeyAxis(input.keys.a, input.keys.d), KeyAxis(input.keys.w, input.keys.s))
  }

  /**
   * The facing angle after this frame: the aim stick when it leaves the
   * deadzone (otherwise the old angle), or the direction to the mouse.
   */
  function Aim(p: Player, input: Input, geo: Geometry): real {
    if UsesController(p, input) then
      var stick := input.joysticks[p.joystickId];
      if Abs(stick.u) > JoystickDeadzone || Abs(stick.v) > JoystickDeadzone then geo.bearing(Vec2(stick.u, stick.v))
      else p.rotation
    else
      geo.bearing(Sub(input.mouse, p.pos))
  }

  /** `std::min` and `std::max`: the first argument wins a tie. */
  function Min(a: real, b: real): real {
    if b < a then b else a
  }

  function Max(a: real, b: real): real {
    if a < b then b else a
  }

  /** `std::max(lo, std::min(v, hi))`, the clamp the player code writes out. */
  function Clamp(v: real, lo: real, hi: real): (r: real)
    requires lo <= hi
    ensures lo <= r <= hi
    ensures lo <= v <= hi ==> r == v
    ensures v < lo ==> r == lo
    ensures v > hi ==> r == hi
  {
    Max(lo, Min(v, hi))
  }

  /** The horizontal limits of each half: a radius from the wall, a radius and a gap from the line. */
  const LeftMinX: real := PlayerRadius
  const LeftMaxX: real := HalfWidth - PlayerRadius - MidlineGap
  const RightMinX: real := HalfWidth + PlayerRadius + MidlineGap
  const RightMaxX: real := WindowWidth - PlayerRadius
  const MinY: real := PlayerRadius
  const MaxY: real := WindowHeight - PlayerRadius

  predicate OnLeftSide(p: Player) {
    p.pos.x < HalfWidth
  }

  /** The region a player is kept in, chosen by the side it stands on. */
  predicate InOwnHalf(p: Player) {
    && MinY <= p.pos.y <= MaxY
    && if OnLeftSide(p) then LeftMinX <= p.pos.x <= LeftMaxX else RightMinX <= p.pos.x <= RightMaxX
  }

  /**
   * The position `moved`, clamped to the half the player stood in before
   * moving: the nearest point of that half, and `moved` itself when it already
   * lies there.
   */
  function ClampToHalf(p: Player, moved: Vec2): (r: Vec2)
    ensures InOwnHalf(p.(pos := r))
    ensures OnLeftSide(p) ==> r.x == Clamp(moved.x, LeftMinX, LeftMaxX)
    ensures !OnLeftSide(p) ==> r.x == Clamp(moved.x, RightMinX, RightMaxX)
    ensures r.y == Clamp(moved.y, MinY, MaxY)
    ensures InOwnHalf(p.(pos := moved)) && (OnLeftSide(p.(pos := moved)) <==> OnLeftSide(p)) ==> r == moved
  {
    var x := if OnLeftSide(p) then Clamp(moved.x, LeftMinX, LeftMaxX) else Clamp(moved.x, RightMinX, RightMaxX);
    Vec2(x, Clamp(moved.y, MinY, MaxY))
  }

  /**
   * The movement part of `Player::update`: turn to the aim, and when there is
   * any movement input, step at `PlayerSpeed` in its direction and clamp.
   */
  function Update(p: Player, dt: real, input: Input, geo: Geometry): (r: Player)
    ensures r.rotation == Aim(p, input, geo)
    ensures r.health == p.health && r.hasWeapon == p.hasWeapon
    ensures r.isControllerPlayer == p.isControllerPlayer && r.joystickId == p.joystickId
    ensures Movement(p, input) == Zero ==> r.pos == p.pos
    ensures Movement(p, input) != Zero ==>
      r.pos == ClampToHalf(p, Add(p.pos, Scale(geo.unit(Movement(p, input)), PlayerSpeed * dt)))
    ensures Movement(p, input) != Zero ==> InOwnHalf(r)
    ensures OnLeftSide(r) <==> OnLeftSide(p)
    ensures InOwnHalf(p) ==> InOwnHalf(r)
  {
    var movement := Movement(p, input);
    var rotated := p.(rotation := Aim(p, input, geo));
    if movement == Zero then rotated
    else
      var moved := Add(p.pos, Scale(Normalize(movement, geo), PlayerSpeed * dt));
      rotated.(pos := ClampToHalf(p, moved))
  }
}

=== FILE: seqs.dfy ===
/**
 * Order-preserving removal from sequences: the shape of `std::vector::erase`
 * inside the game's update loops.
 */
module Seqs {

  /** The sequence `s` without its element at index `i`. */
  function RemoveAt<T>(s: seq<T>, i: nat): (r: seq<T>)
    requires i < |s|
    ensures |r| == |s| - 1
    ensures forall j :: 0 <= j < i ==> r[j] == s[j]
    ensures forall j :: i <= j < |r| ==> r[j] == s[j + 1]
  {
    s[..i] + s[i + 1..]
  }

  /** Erasing index `i` loses no value other than `s[i]`. */
  lemma RemoveAtKeepsOthers<T>(s: seq<T>, i: nat, x: T)
    requires i < |s| && x in s && x != s[i]
    ensures x in RemoveAt(s, i)
  {
    var j :| 0 <= j < |s| && s[j] == x;
    if j < i {
      assert RemoveAt(s, i)[j] == x;
    } else {
      assert RemoveAt(s, i)[j - 1] == x;
    }
  }

  /** `a` is obtained from `b` by deleting elements, keeping the order of the rest. */
  predicate Subseq<T(==)>(a: seq<T>, b: seq<T>)
    decreases |b|
  {
    if a == [] then true
    else if b == [] then false
    else (a[0] == b[0] && Subseq(a[1..], b[1..])) || Subseq(a, b[1..])
  }

  lemma {:induction false} SubseqReflexive<T>(s: seq<T>)
    ensures Subseq(s, s)
    decreases |s|
  {
    if s != [] {
      SubseqReflexive(s[1..]);
    }
  }

  lemma {:induction false} SubseqLength<T>(a: seq<T>, b: seq<T>)
    requires Subseq(a, b)
    ensures |a| <= |b|
    decreases |b|
  {
    if a != [] {
      if a[0] == b[0] && Subseq(a[1..], b[1..]) {
        SubseqLength(a[1..], b[1..]);
      } else {
        SubseqLength(a, b[1..]);
      }
    }
  }

  lemma {:induction false} SubseqTransitive<T>(a: seq<T>, b: seq<T>, c: seq<T>)
    requires Subseq(a, b) && Subseq(b, c)
    ensures Subseq(a, c)
    decreases |c|
  {
    if a != [] {
      assert b != [] && c != [];
      if Subseq(b, c[1..]) {
        SubseqTransitive(a, b, c[1..]);
      } else {
        assert b[0] == c[0] && Subseq(b[1..], c[1..]);
        if a[0] == b[0] && Subseq(a[1..], b[1..]) {
          SubseqTransitive(a[1..], b[1..], c[1..]);
        } else {
          SubseqTransitive(a, b[1..], c[1..]);
        }
      }
    }
  }

  /** Erasing one element leaves a subsequence. */
  lemma {:induction false} RemoveAtIsSubseq<T>(s: seq<T>, i: nat)
    requires i < |s|
    ensures Subseq(RemoveAt(s, i), s)
    decreases i
  {
    if i == 0 {
      assert RemoveAt(s, i) == s[1..];
      SubseqReflexive(s[1..]);
    } else {
      var r := RemoveAt(s, i);
      assert r[0] == s[0];
      assert r[1..] == RemoveAt(s[1..], i - 1);
      RemoveAtIsSubseq(s[1..], i - 1);
    }
  }

  /** Every element of a subsequence is an element of the whole. */
  lemma {:induction false} SubseqMembers<T>(a: seq<T>, b: seq<T>)
    requires Subseq(a, b)
    ensures forall x :: x in a ==> x in b
    decreases |b|
  {
    if a != [] {
      if a[0] == b[0] && Subseq(a[1..], b[1..]) {
        SubseqMembers(a[1..], b[1..]);
        assert a == [a[0]] + a[1..];
        assert b == [b[0]] + b[1..];
      } else {
        SubseqMembers(a, b[1..]);
        assert b == [b[0]] + b[1..];
      }
    }
  }

  /** A subsequence stays one when an element is put in front of the whole, or of both. */
  lemma SubseqPrepend<T>(x: T, a: seq<T>, b: seq<T>)
    requires Subseq(a, b)
    ensures Subseq(a, [x] + b)
    ensures Subseq([x] + a, [x] + b)
  {
    assert ([x] + b)[1..] == b;
    assert ([x] + a)[1..] == a;
  }
}

=== FILE: session.dfy ===
/**
 * The main loop of src/Game.cpp: event handling, the controller triggers
 * polled every frame, and the frame update that runs only while the game is
 * not over.
 */
module Session {
  import opened Optional
  import opened Vectors
  import opened Constants
  import opened Players
  import opened Weapons
  import opened Game

  /** The keys and mouse buttons the game reacts to; every other one is `OtherKey` / `OtherButton`. */
  datatype Key = Space | RControl | E | R | OtherKey
  datatype Button = LeftButton | RightButton | OtherButton

  datatype Event =
    | Closed
    | KeyPressed(key: Key)
    | MousePressed(button: Button)
    | JoystickConnected(joystick: int)
    | JoystickDisconnected(joystick: int)
    | OtherEvent

  /** The trigger states of the previous poll, kept between frames for edge detection. */
  datatype Latch = Latch(rtWasPressed: bool, ltWasPressed: bool)

  /** The window and everything the loop keeps between frames. */
  datatype Session = Session(game: GameState, latch: Latch, open: bool)

  /** Player 1 plays on the keyboard and mouse. */
  predicate KeyboardPlayer1(g: GameState) {
    !g.players.p1.isControllerPlayer
  }

  function SetController1(g: GameState, isController: bool): (r: GameState)
    ensures r.players.p1.isControllerPlayer == isController
    ensures r.players.p1.(isControllerPlayer := g.players.p1.isControllerPlayer) == g.players.p1
    ensures r.(players := g.players) == g && r.players.p2 == g.players.p2
  {
    g.(players := g.players.Put(Player1, SetIsControllerPlayer(g.players.p1, isController)))
  }

  /** Player 1 plays on the keyboard and holds the weapon: the guard of Space, E and the left button. */
  predicate Armed1(g: GameState) {
    g.players.p1.hasWeapon && KeyboardPlayer1(g)
  }

  /** `g` with the bullet `who` fires appended and nothing else changed. */
  predicate FiredBy(r: GameState, g: GameState, who: PlayerId, geo: Geometry) {
    r.bullets == g.bullets + [Shot(g.players.At(who), geo)] && r.(bullets := g.bullets) == g
  }

  /**
   * What one event does while the game is running: Space throws, and E and
   * the left button shoot, for a keyboard player 1 with the weapon; right
   * Control throws and the right button shoots for player 2 with the weapon;
   * joystick 0 coming or going switches player 1's controller flag; every
   * other event does nothing.
   */
  function Playing(g: GameState, ev: Event, geo: Geometry): (r: GameState)
    ensures ev == KeyPressed(Space) && Armed1(g) ==> r == Throw(g, Player1, geo)
    ensures (ev == KeyPressed(E) || ev == MousePressed(LeftButton)) && Armed1(g) ==> FiredBy(r, g, Player1, geo)
    ensures (ev == KeyPressed(Space) || ev == KeyPressed(E) || ev == MousePressed(LeftButton)) && !Armed1(g) ==> r == g
    ensures ev == KeyPressed(RControl) && g.players.p2.hasWeapon ==> r == Throw(g, Player2, geo)
    ensures ev == MousePressed(RightButton) && g.players.p2.hasWeapon ==> FiredBy(r, g, Player2, geo)
    ensures (ev == KeyPressed(RControl) || ev == MousePressed(RightButton)) && !g.players.p2.hasWeapon ==> r == g
    ensures ev == JoystickConnected(0) ==> r == SetController1(g, true)
    ensures ev == JoystickDisconnected(0) ==> r == SetController1(g, false)
    ensures (ev.JoystickConnected? || ev.JoystickDisconnected?) && ev.joystick != 0 ==> r == g
    ensures ev == Closed || ev == OtherEvent || ev == KeyPressed(R) ==> r == g
    ensures ev == KeyPressed(OtherKey) || ev == MousePressed(OtherButton) ==> r == g
  {
    var p2 := g.players.p2;
    match ev
    case KeyPressed(Space) => if Armed1(g) then Throw(g, Player1, geo) else g
    case KeyPressed(RControl) => if p2.hasWeapon then Throw(g, Player2, geo) else g
    case KeyPressed(E) => if Armed1(g) then Shoot(g, Player1, geo) else g
    case MousePressed(RightButton) => if p2.hasWeapon then Shoot(g, Player2, geo) else g
    case MousePressed(LeftButton) => if Armed1(g) then Shoot(g, Player1, geo) else g
    case JoystickConnected(id) => if id == 0 then SetController1(g, true) else g
    case JoystickDisconnected(id) => if id == 0 then SetController1(g, false) else g
    case _ => g
  }

  /**
   * One event of `handleEvents`: the playing reactions while the game is not
   * over, then, once it is over, `R` restarts.
   */
  function HandleEvent(s: Session, ev: Event, f: Frame, geo: Geometry): (r: Session)
    ensures r.latch == s.latch
    ensures r.open == (s.open && ev != Closed)
    ensures s.game.gameOver && ev == KeyPressed(R) ==> r.game == Restart(0 in f.input.joysticks, f.now)
    ensures s.game.gameOver && ev != KeyPressed(R) ==> r.game == s.game
    ensures !s.game.gameOver ==> r.game == Playing(s.game, ev, geo)
  {
    var g := if s.game.gameOver then s.game else Playing(s.game, ev, geo);
    var g' := if g.gameOver && ev == KeyPressed(R) then Restart(0 in f.input.joysticks, f.now) else g;
    Session(g', s.latch, s.open && ev != Closed)
  }

  /** The events of one poll, in order. */
  function HandleEvents(s: Session, events: seq<Event>, f: Frame, geo: Geometry): (r: Session)
    ensures r.latch == s.latch
    decreases |events|
  {
    if events == [] then s
    else HandleEvents(HandleEvent(s, events[0], f, geo), events[1..], f, geo)
  }

  predicate TriggersActive(g: GameState, f: Frame) {
    !g.gameOver && g.players.p1.isControllerPlayer && 0 in f.input.joysticks
  }

  predicate RightTrigger(st: Stick) {
    st.z > TriggerThreshold || st.button7
  }

  predicate LeftTrigger(st: Stick) {
    st.z < -TriggerThreshold || st.button6
  }

  /** The right trigger rises this poll while player 1 holds the weapon: `shoot(player1)` fires. */
  predicate RightEdge(g: GameState, latch: Latch, f: Frame) {
    TriggersActive(g, f) && RightTrigger(f.input.joysticks[0]) && !latch.rtWasPressed && g.players.p1.hasWeapon
  }

  /** The left trigger rises this poll while player 1 holds the weapon: the throw to player 2 fires. */
  predicate LeftEdge(g: GameState, latch: Latch, f: Frame) {
    TriggersActive(g, f) && LeftTrigger(f.input.joysticks[0]) && !latch.ltWasPressed && g.players.p1.hasWeapon
  }

  /**
   * The controller triggers, polled once per frame: a rising edge of the right
   * trigger shoots and a rising edge of the left trigger throws, both only
   * while player 1 has the weapon. The latch is updated only while the
   * triggers are polled.
   */
  function Triggers(g: GameState, latch: Latch, f: Frame, geo: Geometry): (r: (GameState, Latch))
    ensures !TriggersActive(g, f) ==> r == (g, latch)
    ensures TriggersActive(g, f) ==>
      r.1 == Latch(RightTrigger(f.input.joysticks[0]), LeftTrigger(f.input.joysticks[0]))
    ensures RightEdge(g, latch, f) ==> r.0.bullets == g.bullets + [Shot(g.players.p1, geo)]
    ensures !RightEdge(g, latch, f) ==> r.0.bullets == g.bullets
    ensures LeftEdge(g, latch, f) ==>
      r.0.weapon == Throw(g, Player1, geo).weapon && r.0.players == Throw(g, Player1, geo).players
    ensures Consistent(g) && LeftEdge(g, latch, f) ==>
      && PhaseOf(r.0.weapon) == Flying && r.0.weapon.lastHolder == Some(Player1)
      && !r.0.players.p1.hasWeapon && r.0.players.p2 == g.players.p2
      && r.0.weapon.throwCooldown == ThrowCooldown && Blocked(r.0.weapon, Player1)
    ensures !LeftEdge(g, latch, f) ==> r.0.weapon == g.weapon && r.0.players == g.players
    ensures r.0.enemies == g.enemies && r.0.gameOver == g.gameOver && r.0.spawnStart == g.spawnStart
  {
    if TriggersActive(g, f) then
      var st := f.input.joysticks[0];
      var rt := RightTrigger(st);
      var g1 := if rt && !latch.rtWasPressed && g.players.p1.hasWeapon then Shoot(g, Player1, geo) else g;
      var lt := LeftTrigger(st);
      ThrowAfterShot(g, g1, geo);
      var g2 := if lt && !latch.ltWasPressed && g1.players.p1.hasWeapon then Throw(g1, Player1, geo) else g1;
      (g2, Latch(rt, lt))
    else (g, latch)
  }

  /** A shot leaves weapon and players alone, so the throw that follows it in the same poll acts as on `g`. */
  lemma ThrowAfterShot(g: GameState, g1: GameState, geo: Geometry)
    requires g1 == g || g1 == Shoot(g, Player1, geo)
    ensures Throw(g1, Player1, geo).weapon == Throw(g, Player1, geo).weapon
    ensures Throw(g1, Player1, geo).players == Throw(g, Player1, geo).players
    ensures Consistent(g) && g.players.p1.hasWeapon ==>
      var t := Throw(g1, Player1, geo);
      && PhaseOf(t.weapon) == Flying && t.weapon.lastHolder == Some(Player1)
      && !t.players.p1.hasWeapon && t.players.p2 == g.players.p2
      && t.weapon.throwCooldown == ThrowCooldown && Blocked(t.weapon, Player1)
  {
    assert g1.weapon == g.weapon && g1.players == g.players;
    if Consistent(g) && g.players.p1.hasWeapon {
      assert Consistent(g1) && g1.players.At(Player1).hasWeapon;
      assert Player1.Other() == Player2;
    }
  }

  /** One pass of `Game::run`: the events, the triggers, and the update unless the game is over. */
  function Tick(s: Session, events: seq<Event>, f: Frame, geo: Geometry): (r: Session)
    ensures r.open == (s.open && Closed !in events)
    ensures var polled := HandleEvents(s, events, f, geo);
      var t := Triggers(polled.game, polled.latch, f, geo);
      && r.latch == t.1
      && (!t.0.gameOver ==> r.game == Game.Update(t.0, f, geo))
      && (t.0.gameOver ==> r.game == t.0)
  {
    var polled := HandleEvents(s, events, f, geo);
    HandleEventsOpen(s, events, f, geo);
    var triggered := Triggers(polled.game, polled.latch, f, geo);
    var g := if triggered.0.gameOver then triggered.0 else Game.Update(triggered.0, f, geo);
    Session(g, triggered.1, polled.open)
  }

  // ---------------------------------------------------------------------------
  // Properties

  lemma {:induction false} HandleEventsOpen(s: Session, events: seq<Event>, f: Frame, geo: Geometry)
    ensures HandleEvents(s, events, f, geo).open == (s.open && Closed !in events)
    decreases |events|
  {
    if events != [] {
      HandleEventsOpen(HandleEvent(s, events[0], f, geo), events[1..], f, geo);
      assert events == [events[0]] + events[1..];
    }
  }

  /** A poll of one event is that event's handling. */
  lemma HandleEventsSingle(s: Session, ev: Event, f: Frame, geo: Geometry)
    ensures HandleEvents(s, [ev], f, geo) == HandleEvent(s, ev, f, geo)
  {
  }

  /** The events of a poll are handled in order: polling `a + b` is polling `a`, then `b`. */
  lemma {:induction false} HandleEventsAppend(s: Session, a: seq<Event>, b: seq<Event>, f: Frame, geo: Geometry)
    ensures HandleEvents(s, a + b, f, geo) == HandleEvents(HandleEvents(s, a, f, geo), b, f, geo)
    decreases |a|
  {
    if a != [] {
      assert (a + b)[0] == a[0];
      assert (a + b)[1..] == a[1..] + b;
      HandleEventsAppend(HandleEvent(s, a[0], f, geo), a[1..], b, f, geo);
    } else {
      assert a + b == b;
    }
  }

  /** While the game is running, events never change health, enemies or the game-over flag. */
  lemma PlayingKeepsTheFight(g: GameState, ev: Event, geo: Geometry)
    ensures var r := Playing(g, ev, geo);
      && r.gameOver == g.gameOver && r.enemies == g.enemies && r.spawnStart == g.spawnStart
      && r.players.p1.health == g.players.p1.health && r.players.p2.health == g.players.p2.health
  {
  }

  /** A running frame with no events and idle triggers is exactly one `Game::update`. */
  lemma RunningFrameUpdates(s: Session, f: Frame, geo: Geometry)
    requires !s.game.gameOver && !TriggersActive(s.game, f)
    ensures Tick(s, [], f, geo).game == Game.Update(s.game, f, geo)
    ensures Tick(s, [], f, geo).latch == s.latch
  {
  }

  /** `R` does nothing while the game is running. */
  lemma NoRestartWhilePlaying(s: Session, f: Frame, geo: Geometry)
    requires !s.game.gameOver
    ensures HandleEvent(s, KeyPressed(R), f, geo) == s
  {
  }

  /** Once the game is over, a frame without `R` leaves the game exactly as it is. */
  lemma {:induction false} GameOverFreezes(s: Session, events: seq<Event>, f: Frame, geo: Geometry)
    requires s.game.gameOver && KeyPressed(R) !in events
    ensures HandleEvents(s, events, f, geo).game == s.game
    ensures Tick(s, events, f, geo).game == s.game
    decreases |events|
  {
    if events != [] {
      assert events[0] != KeyPressed(R);
      assert KeyPressed(R) !in events[1..] by {
        assert forall e :: e in events[1..] ==> e in events;
      }
      GameOverFreezes(HandleEvent(s, events[0], f, geo), events[1..], f, geo);
    }
  }

  /** A trigger held down across frames fires only once: with both latches set, the triggers do nothing to the game. */
  lemma HeldTriggersFireOnce(g: GameState, f: Frame, geo: Geometry)
    ensures Triggers(g, Latch(true, true), f, geo).0 == g
  {
  }

  lemma PlayingConsistent(g: GameState, ev: Event, geo: Geometry)
    requires Consistent(g)
    ensures Consistent(Playing(g, ev, geo))
  {
  }

  lemma {:induction false} HandleEventsConsistent(s: Session, events: seq<Event>, f: Frame, geo: Geometry)
    requires Consistent(s.game)
    ensures Consistent(HandleEvents(s, events, f, geo).game)
    decreases |events|
  {
    if events != [] {
      var next := HandleEvent(s, events[0], f, geo);
      if !s.game.gameOver {
        PlayingConsistent(s.game, events[0], geo);
      }
      HandleEventsConsistent(next, events[1..], f, geo);
    }
  }

  /** The weapon and the players stay in agreement through every frame of the loop. */
  lemma TickConsistent(s: Session, events: seq<Event>, f: Frame, geo: Geometry)
    requires Consistent(s.game)
    ensures Consistent(Tick(s, events, f, geo).game)
  {
    HandleEventsConsistent(s, events, f, geo);
  }
}

=== FILE: vectors.dfy ===
/**
 * Two-dimensional vectors over the reals (include/Vector2Utils.h).
 *
 * The source works with square roots and trigonometry. The model keeps every
 * comparison exact by comparing squared distances, and takes the three
 * non-algebraic operations it cannot compute as parameters, bundled in
 * `Geometry`.
 */
module Vectors {

  datatype Vec2 = Vec2(x: real, y: real)

  const Zero := Vec2(0.0, 0.0)

  function Add(a: Vec2, b: Vec2): Vec2 {
    Vec2(a.x + b.x, a.y + b.y)
  }

  function Sub(a: Vec2, b: Vec2): Vec2 {
    Vec2(a.x - b.x, a.y - b.y)
  }

  function Scale(v: Vec2, k: real): Vec2 {
    Vec2(v.x * k, v.y * k)
  }

  /** The squared Euclidean length. */
  function LengthSq(v: Vec2): (r: real)
    ensures r >= 0.0
  {
    SquareNonNegative(v.x);
    SquareNonNegative(v.y);
    v.x * v.x + v.y * v.y
  }

  /** The squared distance between two points; the distance of `distance` squared. */
  function DistanceSq(a: Vec2, b: Vec2): (r: real)
    ensures r >= 0.0
  {
    LengthSq(Sub(a, b))
  }

  /**
   * `d` is the value `distance(a, b)` returns: the non-negative square root of
   * the squared distance.
   */
  predicate IsDistance(a: Vec2, b: Vec2, d: real) {
    d >= 0.0 && d * d == DistanceSq(a, b)
  }

  /** `distance(a, b) < radius`, stated without the square root. */
  predicate Within(a: Vec2, b: Vec2, radius: real) {
    DistanceSq(a, b) < radius * radius
  }

  /**
   * The operations the model leaves uninterpreted.
   *  - `unit(v)`: `normalize` of a NON-zero vector (a square root and a division);
   *  - `heading(deg)`: the unit vector (cos, sin) of an angle given in degrees;
   *  - `bearing(v)`: the angle in degrees of the vector `v`, that is atan2(v.y, v.x).
   */
  datatype Geometry = Geometry(unit: Vec2 -> Vec2, heading: real -> Vec2, bearing: Vec2 -> real)

  /**
   * `normalize`: a vector of length zero is returned unchanged, any other is
   * handed to the uninterpreted `unit`. Over the reals the length is zero
   * exactly when both components are, so the test is written on the vector.
   */
  function Normalize(v: Vec2, geo: Geometry): (r: Vec2)
    ensures v == Zero ==> r == Zero
    ensures v != Zero ==> r == geo.unit(v)
  {
    if v == Zero then v else geo.unit(v)
  }

  /** A product of two positive reals is positive. */
  lemma ProductPositive(a: real, b: real)
    requires a > 0.0 && b > 0.0
    ensures a * b > 0.0
  {
  }

  /** Multiplying by a positive factor keeps a strict order. */
  lemma ScaleMonotonic(k: real, a: real, b: real)
    requires k > 0.0 && a < b
    ensures k * a < k * b
  {
    ProductPositive(k, b - a);
    assert k * (b - a) == k * b - k * a;
  }

  /** A square is never negative. */
  lemma SquareNonNegative(x: real)
    ensures x * x >= 0.0
  {
    if x > 0.0 {
      ProductPositive(x, x);
    } else if x < 0.0 {
      ProductPositive(-x, -x);
      assert (-x) * (-x) == x * x;
    }
  }

  /** The square of a non-zero real is positive. */
  lemma SquarePositive(x: real)
    requires x != 0.0
    ensures x * x > 0.0
  {
    if x > 0.0 {
      ProductPositive(x, x);
    } else {
      ProductPositive(-x, -x);
      assert (-x) * (-x) == x * x;
    }
  }

  /** For non-negative reals, squaring preserves the strict order. */
  lemma SquareMonotonic(a: real, b: real)
    requires 0.0 <= a < b
    ensures a * a < b * b
  {
    if a == 0.0 {
      calc {
        a * a;
        ==
        0.0;
        < { ProductPositive(b, b); }
        b * b;
      }
    } else {
      calc {
        a * a;
        < { ScaleMonotonic(a, a, b); }
        a * b;
        == b * a;
        < { ScaleMonotonic(b, a, b); }
        b * b;
      }
    }
  }

  /** Multiplying by a non-negative factor keeps a non-strict order. */
  lemma ScaleNonStrict(k: real, a: real, b: real)
    requires k >= 0.0 && a <= b
    ensures k * a <= k * b
  {
    if k > 0.0 && a < b {
      ScaleMonotonic(k, a, b);
    }
  }

  /** A factor below one shrinks a positive quantity. */
  lemma ScaleBelowOne(c: real, l: real)
    requires 0.0 <= c < 1.0 && l > 0.0
    ensures c * l < l
  {
    calc {
      c * l;
      == l * c;
      < { ScaleMonotonic(l, c, 1.0); }
      l * 1.0;
    }
  }

  /** Only the zero vector has length zero. */
  lemma LengthSqPositive(gap: Vec2)
    requires gap != Zero
    ensures LengthSq(gap) > 0.0
  {
    SquareNonNegative(gap.x);
    SquareNonNegative(gap.y);
    if gap.x != 0.0 {
      calc {
        LengthSq(gap);
        == gap.x * gap.x + gap.y * gap.y;
        >= gap.x * gap.x;
        > { SquarePositive(gap.x); }
        0.0;
      }
    } else {
      assert gap.y != 0.0;
      calc {
        LengthSq(gap);
        == gap.x * gap.x + gap.y * gap.y;
        >= gap.y * gap.y;
        > { SquarePositive(gap.y); }
        0.0;
      }
    }
  }

  /** `distance` is determined: two square roots of the same squared distance agree. */
  lemma DistanceUnique(a: Vec2, b: Vec2, d1: real, d2: real)
    requires IsDistance(a, b, d1) && IsDistance(a, b, d2)
    ensures d1 == d2
  {
    if d1 < d2 {
      SquareMonotonic(d1, d2);
    } else if d2 < d1 {
      SquareMonotonic(d2, d1);
    }
  }

  /** `distance(a, b) == distance(b, a)`. */
  lemma DistanceSymmetric(a: Vec2, b: Vec2, d: real)
    requires IsDistance(a, b, d)
    ensures IsDistance(b, a, d)
  {
    var u, w := Sub(a, b), Sub(b, a);
    assert w.x == -u.x && w.y == -u.y;
    assert w.x * w.x == u.x * u.x;
    assert w.y * w.y == u.y * u.y;
  }

  /** A point is within any nonzero radius of itself. */
  lemma WithinSelf(a: Vec2, radius: real)
    requires radius != 0.0
    ensures Within(a, a, radius)
  {
    assert Sub(a, a) == Zero;
    assert DistanceSq(a, a) == LengthSq(Zero) == 0.0;
    ZeroBelowSquare(DistanceSq(a, a), radius);
  }

  lemma ZeroBelowSquare(d: real, radius: real)
    requires d == 0.0 && radius != 0.0
    ensures d < radius * radius
  {
    SquarePositive(radius);
    calc {
      d;
      == 0.0;
      < radius * radius;
    }
  }

  /** `distance(a, a) == 0`. */
  lemma DistanceToSelf(a: Vec2, d: real)
    requires IsDistance(a, a, d)
    ensures d == 0.0
  {
    calc {
      d * d;
      == DistanceSq(a, a);
      == LengthSq(Sub(a, a));
      == { assert Sub(a, a) == Zero; }
      LengthSq(Zero);
      == 0.0;
    }
    if d > 0.0 {
      calc {
        0.0;
        == d * d;
        > { ProductPositive(d, d); }
        0.0;
      }
    }
  }

  /**
   * Comparing a distance against a non-negative radius is the same as comparing
   * the squared distance against the squared radius; this is how every
   * `distance(...) < r` test of the source is modelled.
   */
  lemma WithinIffDistanceBelow(a: Vec2, b: Vec2, d: real, radius: real)
    requires IsDistance(a, b, d) && radius >= 0.0
    ensures d < radius <==> Within(a, b, radius)
  {
    if d < radius {
      SquareMonotonic(d, radius);
    } else if radius < d {
      SquareMonotonic(radius, d);
    }
  }
}

=== FILE: weapons.dfy ===
/**
 * The single shared weapon (src/Weapon.cpp).
 *
 * As in the source, its three states are encoded by the `isFlying` flag and the
 * optional `holder`: grounded (neither), held (a holder) and flying (the flag).
 * `Exclusive` is the invariant that the two are never set together; `PhaseOf`
 * reads the state back as a three-way variant.
 */
module Weapons {
  import opened Optional
  import opened Vectors
  import opened Constants
  import opened Players

  datatype Weapon = Weapon(
    pos: Vec2,
    vel: Vec2,
    isFlying: bool,
    holder: Option<PlayerId>,
    lastHolder: Option<PlayerId>,
    throwCooldown: real)

  datatype Phase = Grounded | Held(who: PlayerId) | Flying

  /** Held and flying are never both set. */
  predicate Exclusive(w: Weapon) {
    !(w.isFlying && w.holder.Some?)
  }

  function PhaseOf(w: Weapon): Phase {
    if w.isFlying then Flying
    else match w.holder
      case Some(id) => Held(id)
      case None => Grounded
  }

  /** A new weapon lies still on the ground with no cooldown and nobody to remember. */
  function New(x: real, y: real): (w: Weapon)
    ensures w.pos == Vec2(x, y) && w.vel == Zero
    ensures !w.isFlying && w.holder == None && w.lastHolder == None && w.throwCooldown == 0.0
    ensures PhaseOf(w) == Grounded && Exclusive(w)
  {
    Weapon(Vec2(x, y), Zero, false, None, None, 0.0)
  }

  /** The thrower may not take the weapon back while its cooldown runs. */
  predicate Blocked(w: Weapon, who: PlayerId) {
    w.lastHolder == Some(who) && w.throwCooldown > 0.0
  }

  /** The cooldown part of `Weapon::update`. */
  function TickCooldown(w: Weapon, dt: real): (r: Weapon)
    ensures w.throwCooldown >= 0.0 ==> r.throwCooldown >= 0.0
    ensures w.throwCooldown > 0.0 && w.throwCooldown - dt < 0.0 ==> r.throwCooldown == 0.0 && r.lastHolder == None
    ensures w.throwCooldown > 0.0 && w.throwCooldown - dt >= 0.0 ==> r.throwCooldown == w.throwCooldown - dt && r.lastHolder == w.lastHolder
    ensures w.throwCooldown <= 0.0 ==> r == w
    ensures r.(throwCooldown := w.throwCooldown, lastHolder := w.lastHolder) == w
  {
    if w.throwCooldown > 0.0 then
      var left := w.throwCooldown - dt;
      if left < 0.0 then w.(throwCooldown := 0.0, lastHolder := None)
      else w.(throwCooldown := left)
    else w
  }

  /** The flight step: move, damp the velocity, and land once both components are slow. */
  function Fly(w: Weapon, dt: real): (r: Weapon)
    requires w.isFlying
    ensures r.pos == Add(w.pos, Scale(w.vel, dt))
    ensures var damped := Scale(w.vel, FlightDamping);
      if Abs(damped.x) < LandingSpeed && Abs(damped.y) < LandingSpeed
      then !r.isFlying && r.vel == Zero
      else r.isFlying && r.vel == damped
    ensures r.holder == w.holder && r.lastHolder == w.lastHolder && r.throwCooldown == w.throwCooldown
  {
    var moved := Add(w.pos, Scale(w.vel, dt));
    var damped := Scale(w.vel, FlightDamping);
    if Abs(damped.x) < LandingSpeed && Abs(damped.y) < LandingSpeed then
      w.(pos := moved, vel := Zero, isFlying := false)
    else
      w.(pos := moved, vel := damped)
  }

  /**
   * `Weapon::update`. `carry` is where the holder carries the weapon this frame,
   * `CarryOffset` ahead of it along its facing (trigonometry the model leaves out).
   */
  function Update(w: Weapon, dt: real, carry: Vec2): (r: Weapon)
    ensures r.holder == w.holder
    ensures r.isFlying ==> w.isFlying
    ensures Exclusive(w) ==> Exclusive(r)
    ensures w.throwCooldown >= 0.0 ==> r.throwCooldown >= 0.0
    ensures r.lastHolder == w.lastHolder || r.lastHolder == None
    ensures r.throwCooldown == TickCooldown(w, dt).throwCooldown && r.lastHolder == TickCooldown(w, dt).lastHolder
    ensures PhaseOf(w) == Grounded ==> r.pos == w.pos && r.vel == w.vel && PhaseOf(r) == Grounded
    ensures PhaseOf(w).Held? ==> r.pos == carry && r.vel == w.vel && PhaseOf(r) == PhaseOf(w)
    ensures Exclusive(w) && PhaseOf(w) == Flying ==> PhaseOf(r) in {Flying, Grounded}
    ensures w.isFlying ==> r.pos == Add(w.pos, Scale(w.vel, dt))
    ensures w.isFlying ==>
      var damped := Scale(w.vel, FlightDamping);
      if Abs(damped.x) < LandingSpeed && Abs(damped.y) < LandingSpeed
      then !r.isFlying && r.vel == Zero
      else r.isFlying && r.vel == damped
  {
    var c := TickCooldown(w, dt);
    if c.isFlying then Fly(c, dt)
    else if c.holder.Some? then c.(pos := carry)
    else c
  }

  /** `throwTo` acts only for two non-null players of which the first holds the weapon. */
  predicate CanThrow(w: Weapon, from: Option<PlayerId>, to: Option<PlayerId>) {
    from.Some? && to.Some? && w.holder == from
  }

  /**
   * `Weapon::throwTo`: release the weapon from its holder towards the other
   * player at `WeaponThrowSpeed`, and lock the thrower out for `ThrowCooldown`.
   */
  function ThrowTo(w: Weapon, from: Option<PlayerId>, to: Option<PlayerId>, ps: Pair, geo: Geometry): (r: (Weapon, Pair))
    ensures !CanThrow(w, from, to) ==> r == (w, ps)
    ensures CanThrow(w, from, to) ==>
      && r.0.isFlying && r.0.holder == None
      && r.0.lastHolder == from && r.0.throwCooldown == ThrowCooldown
      && r.0.pos == w.pos
      && r.0.vel == Scale(Normalize(Sub(ps.At(to.value).pos, w.pos), geo), WeaponThrowSpeed)
      && r.1 == ps.Put(from.value, SetHasWeapon(ps.At(from.value), false))
    ensures CanThrow(w, from, to) ==> PhaseOf(r.0) == Flying
    ensures CanThrow(w, from, to) && Exclusive(w) ==> PhaseOf(w) == Held(from.value)
    ensures Exclusive(w) ==> Exclusive(r.0)
  {
    if CanThrow(w, from, to) then
      var thrower := from.value;
      var direction := Normalize(Sub(ps.At(to.value).pos, w.pos), geo);
      var w' := w.(isFlying := true, holder := None, lastHolder := from, throwCooldown := ThrowCooldown,
                   vel := Scale(direction, WeaponThrowSpeed));
      (w', ps.Put(thrower, SetHasWeapon(ps.At(thrower), false)))
    else (w, ps)
  }

  /** Within `PickupRange` (40) of the player. */
  predicate InReach(w: Weapon, p: Player) {
    Within(w.pos, p.pos, PickupRange)
  }

  /** What `checkPickup` returns, with the weapon and the players after it. */
  datatype Pickup = Pickup(ok: bool, weapon: Weapon, players: Pair)

  /**
   * `Weapon::checkPickup`: a player who is not locked out takes an unheld
   * weapon within reach, catching it out of the air if it is flying.
   */
  function CheckPickup(w: Weapon, who: PlayerId, ps: Pair): (r: Pickup)
    ensures r.ok <==> !Blocked(w, who) && w.holder == None && InReach(w, ps.At(who))
    ensures !r.ok ==> r.weapon == w && r.players == ps
    ensures r.ok ==>
      && r.weapon.holder == Some(who) && !r.weapon.isFlying
      && r.weapon.vel == (if w.isFlying then Zero else w.vel)
      && r.weapon.pos == w.pos && r.weapon.lastHolder == w.lastHolder && r.weapon.throwCooldown == w.throwCooldown
      && r.players == ps.Put(who, SetHasWeapon(ps.At(who), true))
    ensures w.holder.Some? ==> r.weapon == w && r.players == ps
    ensures PhaseOf(r.weapon) == (if r.ok then Held(who) else PhaseOf(w))
    ensures Exclusive(w) ==> Exclusive(r.weapon)
  {
    if Blocked(w, who) then Pickup(false, w, ps)
    else if w.holder == None && InReach(w, ps.At(who)) then
      var held := w.(holder := Some(who));
      var caught := if held.isFlying then held.(isFlying := false, vel := Zero) else held;
      Pickup(true, caught, ps.Put(who, SetHasWeapon(ps.At(who), true)))
    else Pickup(false, w, ps)
  }

  /** Right after a throw, the thrower cannot pick the weapon up, however close it is. */
  lemma ThrowThenPickupFails(w: Weapon, from: PlayerId, to: PlayerId, ps: Pair, geo: Geometry)
    requires CanThrow(w, Some(from), Some(to))
    ensures var (thrown, qs) := ThrowTo(w, Some(from), Some(to), ps, geo);
      !CheckPickup(thrown, from, qs).ok
  {
  }

  /** Once the updates have used up the cooldown, nobody is locked out any longer. */
  lemma CooldownElapses(w: Weapon, dt: real, carry: Vec2, who: PlayerId)
    requires dt >= w.throwCooldown
    ensures !Blocked(Update(w, dt, carry), who)
  {
  }

  /** A frame shorter than the remaining cooldown leaves the thrower locked out. */
  lemma LockoutPersists(w: Weapon, dt: real, carry: Vec2, who: PlayerId)
    requires Blocked(w, who) && 0.0 <= dt < w.throwCooldown
    ensures Blocked(Update(w, dt, carry), who)
    ensures Update(w, dt, carry).throwCooldown == w.throwCooldown - dt
  {
  }

  /** `n` frames of flight with the same `dt` and carry point. */
  function UpdateTimes(w: Weapon, dt: real, carry: Vec2, n: nat): Weapon
    decreases n
  {
    if n == 0 then w else Update(UpdateTimes(w, dt, carry, n - 1), dt, carry)
  }

  /** While the weapon keeps flying, every frame damps its velocity by `FlightDamping`. */
  lemma {:induction false} FlightDamps(w: Weapon, dt: real, carry: Vec2, n: nat)
    requires w.isFlying && w.holder == None
    ensures var r := UpdateTimes(w, dt, carry, n);
      r.holder == None && (r.isFlying ==> r.vel == Scale(w.vel, Power(FlightDamping, n)))
    ensures n > 0 && UpdateTimes(w, dt, carry, n).isFlying ==> UpdateTimes(w, dt, carry, n - 1).isFlying
    decreases n
  {
    if n > 0 {
      FlightDamps(w, dt, carry, n - 1);
      var before := UpdateTimes(w, dt, carry, n - 1);
      var after := Update(before, dt, carry);
      assert UpdateTimes(w, dt, carry, n) == after;
      if after.isFlying {
        assert before.isFlying;
        DampStep(before, dt, carry, w.vel, Power(FlightDamping, n - 1));
      }
    }
  }

  /** One frame of flight turns a velocity `v0 * k` into `v0 * (k * FlightDamping)`. */
  lemma DampStep(before: Weapon, dt: real, carry: Vec2, v0: Vec2, k: real)
    requires before.isFlying && before.vel == Scale(v0, k)
    requires Update(before, dt, carry).isFlying
    ensures Update(before, dt, carry).vel == Scale(v0, k * FlightDamping)
  {
    assert v0.x * k * FlightDamping == v0.x * (k * FlightDamping);
    assert v0.y * k * FlightDamping == v0.y * (k * FlightDamping);
  }

  function Power(base: real, n: nat): real
    decreases n
  {
    if n == 0 then 1.0 else Power(base, n - 1) * base
  }

  lemma {:induction false} PowerNonNegative(base: real, n: nat)
    requires base >= 0.0
    ensures Power(base, n) >= 0.0
    decreases n
  {
    if n > 0 {
      PowerNonNegative(base, n - 1);
      ScaleNonStrict(Power(base, n - 1), 0.0, base);
    }
  }

  /** Bernoulli's inequality in the form (1 - x)^n * (1 + n x) <= 1. */
  lemma {:induction false} Bernoulli(x: real, n: nat)
    requires 0.0 <= x <= 1.0
    ensures Power(1.0 - x, n) * (1.0 + (n as real) * x) <= 1.0
    decreases n
  {
    if n > 0 {
      var m := (n - 1) as real;
      var p := Power(1.0 - x, n - 1);
      Bernoulli(x, n - 1);
      PowerNonNegative(1.0 - x, n - 1);
      assert (1.0 - x) * (1.0 + (m + 1.0) * x) <= 1.0 + m * x by {
        assert (1.0 - x) * (1.0 + (m + 1.0) * x) == 1.0 + m * x - (m + 1.0) * (x * x);
        SquareNonNegative(x);
        ScaleNonStrict(m + 1.0, 0.0, x * x);
      }
      calc {
        Power(1.0 - x, n) * (1.0 + (n as real) * x);
        == p * (1.0 - x) * (1.0 + (m + 1.0) * x);
        == p * ((1.0 - x) * (1.0 + (m + 1.0) * x));
        <= { ScaleNonStrict(p, (1.0 - x) * (1.0 + (m + 1.0) * x), 1.0 + m * x); }
        p * (1.0 + m * x);
        <= 1.0;
      }
    }
  }

  /** The number of frames after which a thrown weapon has certainly come down. */
  const LandingFrames: nat := 1951

  /**
   * A weapon thrown at no more than the throw speed per component and left
   * alone has landed after `LandingFrames` frames or more, whatever the frame
   * times, because 400 * 0.98^1951 < 10.
   */
  lemma ThrownWeaponLands(w: Weapon, dt: real, carry: Vec2, n: nat)
    requires w.isFlying && w.holder == None
    requires Abs(w.vel.x) <= WeaponThrowSpeed && Abs(w.vel.y) <= WeaponThrowSpeed
    requires n >= LandingFrames
    ensures !UpdateTimes(w, dt, carry, n).isFlying
  {
    var r := UpdateTimes(w, dt, carry, n);
    if r.isFlying {
      FlightDamps(w, dt, carry, n);
      StillFlyingIsFast(w, dt, carry, n);
      DampedBound(n);
      DampedVelocitySmall(w.vel, Power(FlightDamping, n));
    }
  }

  /** A weapon still in the air after a frame of flight has a component at the landing speed or above. */
  lemma StillFlyingIsFast(w: Weapon, dt: real, carry: Vec2, n: nat)
    requires w.isFlying && w.holder == None && n > 0
    ensures var r := UpdateTimes(w, dt, carry, n);
      r.isFlying ==> !(Abs(r.vel.x) < LandingSpeed && Abs(r.vel.y) < LandingSpeed)
  {
    FlightDamps(w, dt, carry, n);
    var before := UpdateTimes(w, dt, carry, n - 1);
    assert UpdateTimes(w, dt, carry, n) == Update(before, dt, carry);
  }

  lemma DampedVelocitySmall(v: Vec2, t: real)
    requires Abs(v.x) <= WeaponThrowSpeed && Abs(v.y) <= WeaponThrowSpeed
    requires t >= 0.0 && t * WeaponThrowSpeed < LandingSpeed
    ensures Abs(Scale(v, t).x) < LandingSpeed && Abs(Scale(v, t).y) < LandingSpeed
  {
    ComponentSmall(v.x, t);
    ComponentSmall(v.y, t);
  }

  /** 0.98^n is at most 1/40.02 from 1951 frames on. */
  lemma DampedBound(n: nat)
    requires n >= LandingFrames
    ensures Power(FlightDamping, n) >= 0.0
    ensures Power(FlightDamping, n) * WeaponThrowSpeed < LandingSpeed
  {
    var t := Power(FlightDamping, n);
    var m := n as real;
    assert t * (1.0 + m * 0.02) <= 1.0 by {
      assert FlightDamping == 1.0 - 0.02;
      Bernoulli(0.02, n);
    }
    assert t >= 0.0 by {
      PowerNonNegative(FlightDamping, n);
    }
    assert t * 40.02 <= t * (1.0 + m * 0.02) by {
      assert 40.02 <= 1.0 + m * 0.02;
      ScaleNonStrict(t, 40.02, 1.0 + m * 0.02);
    }
  }

  /** A velocity component of at most the throw speed, damped by `t`, is below the landing speed. */
  lemma ComponentSmall(a: real, t: real)
    requires Abs(a) <= WeaponThrowSpeed && t >= 0.0 && t * WeaponThrowSpeed < LandingSpeed
    ensures Abs(a * t) < LandingSpeed
  {
    AbsScale(a, t);
    ScaleNonStrict(t, Abs(a), WeaponThrowSpeed);
  }

  lemma AbsScale(a: real, t: real)
    requires t >= 0.0
    ensures Abs(a * t) == t * Abs(a)
  {
    if a < 0.0 {
      assert a * t == -((-a) * t);
      ScaleNonStrict(t, 0.0, -a);
    } else {
      ScaleNonStrict(t, 0.0, a);
    }
  }
}
